=== FILE: README.md ===
# Country code extension: phone parsing, business hours and popup search

This project models the decision logic of a browser extension that finds
phone numbers on a CRM contact page and shows an indicator with the local
time and business-hours status of the number's country. It also models the
logic of the extension's popup, where the country table can be searched.

The modelled parts are these:

- **Dialing-code lookup** (`findCountryByPhoneCode`). The query and each
  record's phone code are reduced to their digits. The lookup returns the
  first record, in table order, whose digits equal the query's digits.
- **Phone-text parsing** (`parsePhoneNumber`). The text is trimmed and then
  tried against six anchored regular expressions, in order. The first that
  matches gives a one-to-four-digit country code. Each expression is modelled
  in three parts:
  - an optional prefix, `(` and/or `+`;
  - the greedy `\d{1,4}`, which tries lengths 4, 3, 2, 1;
  - the tail, written as a sequence of quantified character classes, whose
    language is defined by splitting.
- **Business-hours classifier** (`getTimezoneIcon`). It maps the country's
  local hour and minute to one of four statuses: available, soon, ended,
  unavailable. Each status has its own icon. The message is "Available
  Now" for available; for soon, ended and unavailable it carries a whole
  number of hours.
  - The clock and the time-zone conversion are a parameter, `ClockReading`.
    This is either a local hour, a minute and the formatted time text, or a
    failed conversion.
  - The floating-point `minute / 60` is replaced by exact arithmetic in
    minutes.
- **Indicator tables.** The colour table, which maps a status to a
  background, text and border colour. The tooltip phrase, which is chosen
  by the icon.
- **Popup search.** The state `searchQuery` and `results` is the class
  `PopupSearch.SearchBox`. Its methods `HandleSearch` and `PerformSearch`
  keep `results` equal to the pure filter `Search` of the current query.
  The filter tries these rules in order:
  - phone-code prefix;
  - exact ISO2, ISO3 or FIPS code;
  - top-level domain equal to the query, or to the query with its first dot
    removed (wherever that dot is);
  - every query word at a word boundary of the name, or every query word at
    a word boundary of the capital.
- **Time-zone label.** The label on a popup result card is the second
  `/`-separated segment of the zone name, with underscores shown as spaces.

The lookup in `content.js` is exact equality of digit strings. There is no
prefix search with digit-count thresholds, no scanner over the page's text
and no comparison with reference time zones in these sources.

Text is `seq<char>`. `\d` is ASCII `0`–`9`. `\s` and `trim()` use
JavaScript's whitespace set: the WhiteSpace and LineTerminator code points.
`toLowerCase()` is modelled for ASCII letters only.

Modules:

| Module | File | Contents |
|---|---|---|
| `Opt`, `Scan`, `Text` | `text.dfy` | the optional value, the first-accepted scan, character classes, digit extraction, trimming, lower case, number text |
| `Countries`, `PhoneLookup` | `lookup.dfy` | the record and the lookup |
| `PhoneParse` | `parse.dfy` | the regular-expression model and `ParsePhoneNumber` |
| `RunLanguage` | `parse_facts.dfy` | facts about tail languages |
| `PhoneShapes` | `phone_shapes.dfy` | what the parse returns for each shape of input |
| `BusinessHours` | `hours.dfy` | the classifier, the colour table and the tooltip |
| `PopupSearch` | `popup.dfy` | the search filter, the popup state and the label |

## Model

| member | source | states |
|---|---|---|
| Text.IsSpace | content.js:115 | definition: the character set of `\s`, `trim()` and `split(/\s+/)`, JavaScript's WhiteSpace and LineTerminator code points |
| Text.DigitsOf | content.js:7 | `replace(/\D/g, '')` yields only digits, never more characters than it was given, and leaves an all-digit text unchanged |
| Text.DigitsOfConcat | content.js:11 | removing non-digits distributes over concatenation, so with `DigitsOf` and `DigitsOfNoDigits` the result is fixed character by character |
| Text.DigitsOfNoDigits | content.js:7 | a text without digits is reduced to nothing |
| Text.AsciiLower | popup.js:25 | `toLowerCase()` keeps the length and lowers each ASCII capital, leaving every other character |
| Text.NatText | content.js:71 | a `${n}` rendering is a non-empty run of digits with no leading zero, which with `NatTextRoundTrip` is the decimal text of `n` |
| Text.Trim | content.js:115 | the trimmed text is the slice after the leading whitespace, followed only by whitespace; it neither starts nor ends with whitespace; it is empty exactly when the text is all whitespace |
| Text.NatTextRoundTrip | content.js:71 | the whole number written into a message reads back as the same number |
| Text.NatTextInjective | content.js:71 | different counts give different digit texts |
| PhoneLookup.FirstMatch | content.js:10-13 | `find` gives the index of the first record whose digits-only code equals the query; nothing exactly when no record matches |
| Countries.Truthy | content.js:18 | definition: JavaScript truthiness of an optional text field, present and non-empty |
| PhoneLookup.CodeText | content.js:11 | definition: `String(country['Phone Code'])`, with a missing code rendered as "undefined" |
| PhoneLookup.CodeMatches | content.js:11-12 | definition: the record's digits-only code equals the digits-only query |
| PhoneLookup.FindCountryByPhoneCode | content.js:5-14 | the result is a table record that matches the digits-only query, with no match before it; nothing exactly when no record matches |
| PhoneLookup.LookupIgnoresDecoration | content.js:7-13 | non-digit characters before or after the query never change the record found |
| PhoneLookup.PlusAndParenthesesIgnored | content.js:7-13 | "+91", "(91)" and "91" find the same record |
| PhoneParse.Patterns | content.js:118-125 | definition: the six regular expressions in the order they are tried, each as its optional `(`, and the tail after the `\d{1,4}` capture |
| PhoneParse.PatternsShape | content.js:118-125 | there are six patterns; only the fifth admits a leading `(`; no tail starts with `\d` |
| PhoneParse.InClass | content.js:118-125 | definition: the character classes `\d`, `\s`, `[-\s]` and `\)` of the six expressions |
| PhoneParse.Fits | content.js:118-125 | definition: a text fits one quantified class `k{m,n}` when its length is within the bounds and every character is in the class |
| PhoneParse.Matches | content.js:118-125 | definition: the language of a tail, the texts that split into consecutive pieces each fitting its quantified class |
| PhoneParse.AfterPrefix | content.js:119-124 | definition: the anchored prefix `^\(?\+?` (or `^\+?`) takes each optional character when it is there |
| PhoneParse.Accepted | content.js:132 | definition: `match && match[1] && match[1].length >= 1 && match[1].length <= 4` |
| PhoneParse.PatternCode | content.js:128-130 | `match[1]` of one pattern: the optional `(` and `+` are skipped, then the greedy code of `LongestCode` is taken |
| PhoneShapes.TailNeedsDigit | content.js:119-124 | every pattern's tail has a mandatory `\d` run |
| PhoneShapes.TailsTwoDigitRuns | content.js:119-124 | no pattern's tail has more than two `\d` items |
| PhoneParse.LongestCode | content.js:118-125 | greedy `\d{1,4}`: the chosen code is a digit prefix of 1 to 4 characters that the tail accepts, no longer length is accepted, and there is no code exactly when no length is accepted |
| Scan.FirstAccepted | content.js:127-139 | the `for…of` with early return finds the first accepted element; nothing exactly when none is accepted |
| PhoneParse.CaptureAccepted | content.js:132 | the length check on `match[1]` never rejects a match, so the first matching pattern decides |
| PhoneParse.FirstPattern | content.js:127-139 | the pattern chosen is the first that matches the trimmed text; nothing exactly when none matches |
| PhoneParse.ParsePhoneNumber | content.js:113-142 | null exactly when no pattern matches; otherwise the country code is 1 to 4 ASCII digits, taken from the first matching pattern, and the full number equals the trimmed input |
| RunLanguage.MatchesEmptyText | content.js:118-125 | a tail accepts the empty text exactly when none of its runs is mandatory |
| RunLanguage.DigitsMissMandatorySeparator | content.js:119-122 | a tail with a mandatory separator run rejects text made only of digits |
| RunLanguage.MatchesBoundsDigitBlocks | content.js:118-125 | a text accepted by a tail has no more maximal digit groups than the tail has `\d` items |
| PhoneShapes.SeparatedInput | content.js:119-122 | `+C SEP D [SEP D]` with a 1–4 digit code gives C, from the first pattern |
| PhoneShapes.DigitsOnlyInput | content.js:118-125 | k ≥ 2 bare digits, with or without `+`, give the first min(4, k−1) digits: the first four patterns need a separator, so the fifth decides |
| PhoneShapes.TooShortInput | content.js:141 | empty text, whitespace, `+`, or a single digit with or without `+` gives null |
| PhoneShapes.ParenthesisedInput | content.js:123 | `(+C)SEP D`, the `+` optional, gives C, from the fifth pattern |
| PhoneShapes.ThreeGroupsRejected | content.js:118-125 | a code followed by three separated digit groups matches no pattern, so the parse is null |
| PhoneShapes.ThreeGroupLayoutRejected | content.js:119 | "+1 902-481-1350", the layout cited beside the first pattern, parses to null |
| PhoneShapes.ExampleIndiaHyphen | content.js:119 | "+91 97854-78207" gives code "91" and the text itself |
| PhoneShapes.ExampleIndiaSpaces | content.js:120 | "+91 96469 97676" gives code "91" |
| PhoneShapes.ExampleNetherlands | content.js:120 | "+31 6 42437939" gives code "31" |
| PhoneShapes.ExampleItalyHyphen | content.js:121 | "+39-3493433405" gives code "39" |
| PhoneShapes.ExampleItalyHyphenNoPlus | content.js:121 | "39-3493433405" gives code "39" |
| PhoneShapes.ExampleItalyParenthesised | content.js:123 | "(+39) 3493433405" gives code "39" |
| BusinessHours.Status.Name | content.js:40 | definition: the `status` strings "available", "soon", "ended" and "unavailable" that the colour table switches on |
| BusinessHours.IconOf | content.js:39 | definition: the green, yellow, blue and red circle icons of the four statuses |
| BusinessHours.TierAt | content.js:37-98 | definition: the reference tiers by hour, available 10–18, soon 6–9, ended 19–22, unavailable otherwise |
| BusinessHours.HoursShown | content.js:50-98 | definition: the reference hour count, 10−h before ten, h−19 from 19:00 to 22:59, 11 at 23:xx, and none while available |
| BusinessHours.MinutesUntilStart | content.js:50-58 | `hoursUntilStart` in minutes is positive, at most a day, and lands exactly on the next 10:00 |
| BusinessHours.MinutesSinceEnd | content.js:60-64 | definition: `hoursSinceEnd` in minutes, the time since 19:00, or zero before 19:00 |
| BusinessHours.CeilHours | content.js:71 | `Math.ceil` of minutes as hours: the least whole hour count covering the minutes |
| BusinessHours.FloorHours | content.js:85 | `Math.floor` of minutes as hours: the greatest whole hour count not exceeding the minutes |
| BusinessHours.OpensIn | content.js:71 | definition: the template `Opens in ${n}h` |
| BusinessHours.EndedAgo | content.js:85 | definition: the template `Ended ${n}h ago` |
| BusinessHours.MessageOf | content.js:37-98 | definition: the message of each status, "Available Now", `Opens in`, `Ended … ago`, and `Opens in` again for unavailable |
| BusinessHours.GetTimezoneIcon | content.js:17-110 | null exactly when the country or its capital's zone is missing or the conversion fails; otherwise the status is the tier of the local hour, with that tier's icon, the message "Available Now" when available and otherwise one carrying the tier's whole number of hours, and the formatted time |
| BusinessHours.HourRounding | content.js:54-63 | ceiling and floor of a time in whole hours and minutes, worked out exactly in minutes |
| BusinessHours.MinuteIrrelevant | content.js:50-98 | two readings in the same hour give the same indicator, whatever their minutes |
| BusinessHours.ShownHoursBounds | content.js:50-98 | soon shows 10−h, in 1..4; ended shows h−19, in 0..3; unavailable shows 10−h, in 5..10, before 06:00 and 11 during 23:xx |
| BusinessHours.TierBoundaries | content.js:37-95 | 05:59 is unavailable, 06:00 and 09:59 soon, 10:00 and 18:59 available, 19:00 and 22:59 ended, 23:00 unavailable |
| BusinessHours.StatusPalette | content.js:242-259 | each of the three named statuses has its own colour triple; every other status string, and only those, gets the red triple |
| BusinessHours.PalettesDistinct | content.js:242-259 | the four statuses the classifier produces are shown in four different colour triples |
| BusinessHours.IndicatorColours | content.js:242-259 | an indicator is green exactly when available and red exactly when unavailable |
| BusinessHours.TooltipPhrase | content.js:162 | "In business hours" exactly for the green icon, "Near business hours" exactly for the yellow one, "Outside business hours" for every other icon |
| BusinessHours.NameText | content.js:162 | definition: `${country['Country Name']}`, with a missing name rendered as "undefined" |
| BusinessHours.TooltipTitle | content.js:162 | the title is the country name and `: `, then exactly the message, then the phrase for the icon in parentheses; its length leaves nothing else |
| BusinessHours.TitleOfIcon | content.js:162 | any title closes with "(In business hours)" exactly for the green icon and with "(Near business hours)" exactly for the yellow one, since no closing phrase ends another |
| BusinessHours.TitleFollowsStatus | content.js:162 | for a classifier result the title closes with "(In business hours)" exactly when available, and with "(Near business hours)" exactly when soon |
| BusinessHours.TooltipFollowsStatus | content.js:162 | for a classifier result the tooltip says in, near or outside business hours exactly when the status is available, soon, or ended or unavailable |
| PopupSearch.SearchTerm | popup.js:25 | definition: `searchQuery.toLowerCase().trim()` |
| PopupSearch.LowerEquals | popup.js:40-48 | definition: `field?.toLowerCase() === term`, false for a missing field |
| PopupSearch.LowerOrEmpty | popup.js:37-38 | definition: the lowered field, or the empty text when the field is missing |
| PopupSearch.AllWordsMatch | popup.js:52-64 | definition: `words.every(...)`, every word at a word boundary of the text |
| PopupSearch.IsPrefix | popup.js:34 | definition: `startsWith`, the text begins with the prefix |
| PopupSearch.FirstIndex | popup.js:47 | the first position of a character, or nothing exactly when it is absent |
| PopupSearch.RemoveFirstDot | popup.js:47 | `replace('.', '')` removes the first dot only, and leaves dotless text alone |
| PopupSearch.IsPhoneSearch | popup.js:31 | phone mode is a term that starts with `+` or is all digits |
| PopupSearch.SplitWords | popup.js:51 | `split(/\s+/)` always yields at least one piece; `SplitWordsAtGaps` pins where it cuts |
| PopupSearch.Gaps | popup.js:51 | the maximal whitespace runs of the query, one per run, each non-empty and all whitespace |
| PopupSearch.SplitWordsAtGaps | popup.js:51 | the query is its pieces interleaved with its whitespace runs, and no piece holds whitespace: the cuts fall exactly at the maximal runs |
| PopupSearch.SplitWordsNoSpace | popup.js:51 | no word from `split(/\s+/)` contains whitespace |
| PopupSearch.SplitWordsConcat | popup.js:51 | the words joined together are the query without its whitespace |
| PopupSearch.SplitWordsCount | popup.js:51 | there is one more word than there are whitespace runs |
| PopupSearch.TrimmedWordsNonEmpty | popup.js:25-51 | a trimmed non-blank query splits into non-empty words only |
| PopupSearch.SplitOneWord | popup.js:51 | a query without whitespace is a single word |
| PopupSearch.SplitTwoWords | popup.js:51 | two words joined by one space split back into those two words |
| PopupSearch.Select | popup.js:27-67 | `filter` keeps no more than the table holds; what it keeps is in the table and accepted; every accepted record is kept |
| PopupSearch.Positions | popup.js:27-67 | the accepted positions, strictly increasing and complete |
| PopupSearch.SelectKeepsOrder | popup.js:27 | the results are the table read at the accepted positions in ascending order, so nothing is duplicated or reordered |
| PopupSearch.Filter | popup.js:27-67 | the results are table records that satisfy the predicate, and every record that satisfies it is among them |
| PopupSearch.Search | popup.js:19-27 | a blank query gives no results; otherwise every result is a table record matching the term, and every matching record is a result |
| PopupSearch.BlankQueryNoResults | popup.js:20-23 | an empty or whitespace-only query leaves no results, whatever the table holds |
| PopupSearch.PhoneModeOnlyCode | popup.js:28-35 | in phone mode a record matches exactly when its digits-only phone code starts with the query's digits; a record without a phone code never matches |
| PopupSearch.PlusAloneFallsThrough | popup.js:31-33 | the query "+" has no digit, so the code, domain and name rules decide |
| PopupSearch.CodeMatchIgnoresCase | popup.js:40-44 | outside phone mode, an ISO2, ISO3 or FIPS code equal to the query up to case is a match |
| PopupSearch.DomainRuleMatches | popup.js:46-48 | outside phone mode, a domain equal to the query, or to the query with its first dot removed, is a match |
| PopupSearch.DomainDotAnywhere | popup.js:47 | "i.n" also finds the domain "in": the dot removed need not lead the query |
| PopupSearch.DomainWithOrWithoutDot | popup.js:46-48 | ".in" and "in" both find the country whose domain is "in" |
| PopupSearch.IsBoundary | popup.js:55 | `\b` without the `u` flag: exactly one side of the position is an ASCII word character, the text's ends counting as non-word |
| PopupSearch.WordAtBoundary | popup.js:54-56 | `new RegExp('\\b' + escapedWord, 'i').test(text)`: the word occurs literally at a word boundary |
| PopupSearch.MatchesQuery | popup.js:27-67 | the filter callback: phone mode decides alone; otherwise an ISO2, ISO3 or FIPS match, then a domain match, then every word in the name or every word in the capital |
| PopupSearch.WordAfterSeparator | popup.js:54-55 | a word that starts with a word character and starts the text, or follows a non-word character, is found there |
| PopupSearch.WordsNotSplitAcrossFields | popup.js:51-66 | a two-word query whose first word misses the capital and second word misses the name matches neither |
| PopupSearch.NoMatchInsideWord | popup.js:55 | "ndia" is not found in "india": `\b` excludes a start inside a word |
| PopupSearch.SearchBox.constructor | popup.js:4-5 | the popup starts with an empty query and no results |
| PopupSearch.SearchBox.PerformSearch | popup.js:19-68 | `results` becomes the search of the current query; nothing else changes |
| PopupSearch.SearchBox.HandleSearch | popup.js:13-17 | the query becomes the input's value and `results` its search |
| PopupSearch.SearchBox.ShownResultsMatch | popup.js:19-27 | under the invariant, the cards shown are exactly the table's records matching the typed query, and none for a blank query |
| PopupSearch.Spaced | popup.js:191 | `replace(/_/g, ' ')` keeps the length, turns every underscore into a space, and keeps every other character |
| PopupSearch.TimeZoneLabel | popup.js:191 | absent exactly when the zone is missing or has no `/`; otherwise the second `/`-separated segment with underscores as spaces |
| PopupSearch.SecondSegmentUnique | popup.js:191 | a zone name has only one second segment |
| PopupSearch.LabelOfSegment | popup.js:191 | once the second segment is known, the label is that segment with underscores as spaces |
| PopupSearch.LabelOfAreaCity | popup.js:191 | for `Area/City` the label is the city with underscores as spaces |
| PopupSearch.LabelOfThreeSegments | popup.js:191 | for `Area/Region/City` the label is the region; the rest is dropped |
| PopupSearch.SpacedNewYork | popup.js:191 | "New_York" is shown as "New York" |

## Left out

- The page scanning, icon insertion, mutation observers, URL watching and timers in `content.js` (lines 145-380, apart from the tooltip at 162 and the colour table at 242-259) are left out: they are browser I/O and scheduling.
- `new Date()` and `toLocaleString` with a `timeZone` are not modelled. The local hour, the minute and the formatted time text come in as a `ClockReading`, and a throwing conversion is `ConversionFailed`.
- An Invalid Date, whose hour is `NaN`, is not modelled: a reading always has an hour in 0..23 and a minute in 0..59.
- The floating-point `minute / 60` and `Math.ceil`/`Math.floor` are replaced by exact integer arithmetic in minutes. This is exact for whole minutes.
- `toLowerCase()` and the regular expression's `i` flag are modelled for ASCII letters only. Non-ASCII case folding is not modelled.
- A record whose phone code is a number rather than a string is not modelled. Fields are optional strings, so `String(undefined)` is modelled as "undefined", and `?.replace` in the popup as a missing code.
- `background.js` is left out: it only handles extension lifecycle callbacks and default settings.
- The contents of the `COUNTRIES` table are not part of this model, which is loaded from a file outside these sources. The table is a parameter.
- Popup rendering, `getCurrentTime`, the one-second refresh and the event wiring in `popup.js` are left out; only the label at line 191 is modelled. A missing label renders as the text "undefined", and that rendering is not modelled.
- `console.error` in the classifier's `catch` (content.js:107) is not modelled: logging has no effect on the result, which is null in that case.
- BusinessHours.HourRounding: its ceiling clause requires a whole hour count of at least one. The classifier never rounds a time under one minute, so the weaker clause is enough.

=== FILE: hours.dfy ===
/** The content script's business-hours classifier (`getTimezoneIcon`) and
    the two lookup tables that go with it: the status colours of the
    single-contact indicator and the phrase of the icon's tooltip.

    The clock is not part of the model. The caller passes in the reading of
    the destination's local time: its hour, its minute and its formatted
    text, or the failure of the zone conversion. The source's
    `minute / 60` float arithmetic is kept exact by counting in sixtieths of
    an hour (that is, in minutes). */
module BusinessHours {
  import opened Opt
  import opened Text
  import opened Countries

  type Hour = h: int | 0 <= h < 24
  type Minute = m: int | 0 <= m < 60

  /** The destination's local time, as `getHours`, `getMinutes` and the
      formatted `toLocaleString` read it, or the conversion throwing (for
      instance on a zone name the runtime does not know). */
  datatype ClockReading =
    | LocalTime(hour: Hour, minute: Minute, text: string)
    | ConversionFailed

  datatype Status = Available | Soon | Ended | Unavailable {
    /** The `status` string the indicator carries. */
    function Name(): string {
      match this
      case Available => "available"
      case Soon => "soon"
      case Ended => "ended"
      case Unavailable => "unavailable"
    }
  }

  const GreenCircle: string := "\U{1F7E2}"
  const YellowCircle: string := "\U{1F7E1}"
  const BlueCircle: string := "\U{1F535}"
  const RedCircle: string := "\U{1F534}"

  /** The object `getTimezoneIcon` returns. */
  datatype Indicator = Indicator(icon: string, status: Status, message: string, time: string)

  const BusinessStart := 10
  const BusinessEnd := 19

  /** `hoursUntilStart`, in minutes: to 10:00 today before ten, else to 10:00 tomorrow. */
  function MinutesUntilStart(h: Hour, m: Minute): (r: nat)
    ensures 0 < r <= 24 * 60
    ensures (h * 60 + m + r) % (24 * 60) == BusinessStart * 60
  {
    if h < BusinessStart then (BusinessStart - h) * 60 - m
    else ((24 - h) + BusinessStart) * 60 - m
  }

  /** `hoursSinceEnd`, in minutes: zero before 19:00. */
  function MinutesSinceEnd(h: Hour, m: Minute): nat {
    if h >= BusinessEnd then (h - BusinessEnd) * 60 + m else 0
  }

  /** `Math.ceil(x / 60)` for a whole number of minutes `x`. */
  function CeilHours(x: nat): (r: nat)
    ensures x <= r * 60 < x + 60
  {
    (x + 59) / 60
  }

  /** `Math.floor(x / 60)` for a whole number of minutes `x`. */
  function FloorHours(x: nat): (r: nat)
    ensures r * 60 <= x < r * 60 + 60
  {
    x / 60
  }

  function OpensIn(n: nat): string { "Opens in " + NatText(n) + "h" }
  function EndedAgo(n: nat): string { "Ended " + NatText(n) + "h ago" }

  // Reference definitions: the four tiers by hour, and the whole number of
  // hours each tier shows, both read off the hour alone.

  /** The tier of an hour: 10–18 available, 6–9 soon, 19–22 ended, the rest
      (23 and 0–5) unavailable. */
  function TierAt(h: Hour): Status {
    if 10 <= h <= 18 then Available
    else if 6 <= h <= 9 then Soon
    else if 19 <= h <= 22 then Ended
    else Unavailable
  }

  function IconOf(s: Status): string {
    match s
    case Available => GreenCircle
    case Soon => YellowCircle
    case Ended => BlueCircle
    case Unavailable => RedCircle
  }

  /** Whole hours until ten o'clock (tomorrow's after 23:00), or since seven. */
  function HoursShown(h: Hour): nat {
    if h < 10 then 10 - h
    else if h < 19 then 0
    else if h < 23 then h - 19
    else 11
  }

  function MessageOf(s: Status, n: nat): string {
    match s
    case Available => "Available Now"
    case Soon => OpensIn(n)
    case Ended => EndedAgo(n)
    case Unavailable => OpensIn(n)
  }

  /** Rounding a time that is `q` hours and `r` minutes, or `r` minutes short of `q` hours. */
  lemma HourRounding(q: nat, r: nat)
    requires r < 60
    ensures FloorHours(q * 60 + r) == q
    ensures r == 0 ==> CeilHours(q * 60) == q
    ensures 0 < r && 1 <= q ==> CeilHours(q * 60 - r) == q
  {
    DivideSixty(q, r);
    DivideSixty(q, 59);
    if 0 < r && 1 <= q {
      assert q * 60 - r + 59 == (q - 1) * 60 + (119 - r);
      DivideSixty(q - 1, 119 - r);
    }
  }

  lemma DivideSixty(q: nat, r: nat)
    requires r < 120
    ensures (q * 60 + r) / 60 == q + (if r < 60 then 0 else 1)
  {
    var d := (q * 60 + r) / 60;
    var k := if r < 60 then 0 else 1;
    assert q * 60 + r == (q + k) * 60 + (r - 60 * k);
  }

  /** Before ten, or from 23:00, the hours until opening round up to the
      shown number whatever the minute. */
  lemma UntilStartRounding(h: Hour, m: Minute)
    requires h < 10 || h == 23
    ensures CeilHours(MinutesUntilStart(h, m)) == HoursShown(h)
  {
    var q := if h < 10 then 10 - h else 11;
    assert MinutesUntilStart(h, m) == q * 60 - m;
    HourRounding(q, m);
  }

  /** From 19:00, the hours since closing round down to the shown number. */
  lemma SinceEndRounding(h: Hour, m: Minute)
    requires 19 <= h
    ensures FloorHours(MinutesSinceEnd(h, m)) == h - 19
  {
    HourRounding(h - 19, m);
  }

  /** `getTimezoneIcon`. Nothing when the country or its capital's time zone
      is missing or the conversion fails; otherwise the tier of the local
      hour, that tier's icon, the message and the formatted time. The
      message is "Available Now" when available; for soon, ended and
      unavailable it carries the tier's whole number of hours (the same for
      every minute of the hour). */
  function GetTimezoneIcon(country: Option<Country>, reading: ClockReading): (r: Option<Indicator>)
    ensures r.None? <==> country.None? || !Truthy(country.value.timeZoneInCapital)
                         || reading.ConversionFailed?
    ensures r.Some? ==> r.value.status == TierAt(reading.hour)
    ensures r.Some? ==> r.value.icon == IconOf(r.value.status)
    ensures r.Some? ==> r.value.message == MessageOf(r.value.status, HoursShown(reading.hour))
    ensures r.Some? ==> r.value.time == reading.text
  {
    if country.None? || !Truthy(country.value.timeZoneInCapital) then None
    else match reading
      case ConversionFailed => None
      case LocalTime(h, m, text) =>
        if BusinessStart <= h < BusinessEnd then
          Some(Indicator(GreenCircle, Available, "Available Now", text))
        else
          var untilStart := MinutesUntilStart(h, m);
          var sinceEnd := MinutesSinceEnd(h, m);
          if 6 <= h < BusinessStart then
            UntilStartRounding(h, m);
            Some(Indicator(YellowCircle, Soon, OpensIn(CeilHours(untilStart)), text))
          else if BusinessEnd <= h < 23 then
            SinceEndRounding(h, m);
            Some(Indicator(BlueCircle, Ended, EndedAgo(FloorHours(sinceEnd)), text))
          else
            UntilStartRounding(h, m);
            Some(Indicator(RedCircle, Unavailable, OpensIn(CeilHours(untilStart)), text))
  }

  /** The minute never changes the indicator: only the hour decides the tier
      and the number of hours shown. */
  lemma MinuteIrrelevant(country: Option<Country>, h: Hour, m1: Minute, m2: Minute, text: string)
    ensures GetTimezoneIcon(country, LocalTime(h, m1, text))
         == GetTimezoneIcon(country, LocalTime(h, m2, text))
  {
    var r1 := GetTimezoneIcon(country, LocalTime(h, m1, text));
    var r2 := GetTimezoneIcon(country, LocalTime(h, m2, text));
    if r1.Some? {
      assert r1.value == r2.value;
    }
  }

  /** The number in a "soon" message is 1 to 4, in an "ended" message 0 to 3,
      and in an "unavailable" message 5 to 10 before six o'clock and 11 at 23:xx. */
  lemma ShownHoursBounds(country: Option<Country>, reading: ClockReading)
    requires GetTimezoneIcon(country, reading).Some?
    ensures var r := GetTimezoneIcon(country, reading).value;
            var h := reading.hour;
            && (r.status == Soon ==> r.message == OpensIn(10 - h) && 1 <= 10 - h <= 4)
            && (r.status == Ended ==> r.message == EndedAgo(h - 19) && 0 <= h - 19 <= 3)
            && (r.status == Unavailable && h < 6 ==> r.message == OpensIn(10 - h) && 5 <= 10 - h <= 10)
            && (r.status == Unavailable && h >= 6 ==> h == 23 && r.message == OpensIn(11))
  {
  }

  /** The tier boundaries at the minute on either side of each change. */
  lemma TierBoundaries(country: Country, text: string)
    requires Truthy(country.timeZoneInCapital)
    ensures GetTimezoneIcon(Some(country), LocalTime(5, 59, text)).value.status == Unavailable
    ensures GetTimezoneIcon(Some(country), LocalTime(6, 0, text)).value.status == Soon
    ensures GetTimezoneIcon(Some(country), LocalTime(9, 59, text)).value.status == Soon
    ensures GetTimezoneIcon(Some(country), LocalTime(10, 0, text)).value.status == Available
    ensures GetTimezoneIcon(Some(country), LocalTime(18, 59, text)).value.status == Available
    ensures GetTimezoneIcon(Some(country), LocalTime(19, 0, text)).value.status == Ended
    ensures GetTimezoneIcon(Some(country), LocalTime(22, 59, text)).value.status == Ended
    ensures GetTimezoneIcon(Some(country), LocalTime(23, 0, text)).value.status == Unavailable
  {
  }

  /** Background, text and border colour of the single-contact indicator. */
  datatype Palette = Palette(background: string, text: string, border: string)

  const GreenPalette := Palette("#d1fae5", "#065f46", "#a7f3d0")
  const YellowPalette := Palette("#fef3c7", "#92400e", "#fde68a")
  const BluePalette := Palette("#dbeafe", "#1e40af", "#93c5fd")
  const RedPalette := Palette("#fee2e2", "#991b1b", "#fecaca")

  /** The colours chosen for a `status` string: one triple per known status,
      the red one for anything else. */
  function StatusPalette(status: string): (r: Palette)
    ensures status == "available" <==> r == GreenPalette
    ensures status == "soon" <==> r == YellowPalette
    ensures status == "ended" <==> r == BluePalette
    ensures status != "available" && status != "soon" && status != "ended" <==> r == RedPalette
  {
    if status == "available" then GreenPalette
    else if status == "soon" then YellowPalette
    else if status == "ended" then BluePalette
    else RedPalette
  }

  /** Each status the classifier produces is shown in colours of its own. */
  lemma PalettesDistinct(s1: Status, s2: Status)
    requires s1 != s2
    ensures StatusPalette(s1.Name()) != StatusPalette(s2.Name())
  {
  }

  /** The tooltip's closing phrase, chosen by the icon. */
  function TooltipPhrase(icon: string): (r: string)
    ensures r == "In business hours" <==> icon == GreenCircle
    ensures r == "Near business hours" <==> icon == YellowCircle
    ensures r == "Outside business hours" <==> icon != GreenCircle && icon != YellowCircle
  {
    if icon == GreenCircle then "In business hours"
    else if icon == YellowCircle then "Near business hours"
    else "Outside business hours"
  }

  /** `${country['Country Name']}` in a template literal. */
  function NameText(country: Country): string {
    match country.countryName
    case Some(n) => n
    case None => "undefined"
  }

  predicate EndsWith(s: string, x: string) {
    |x| <= |s| && s[|s| - |x|..] == x
  }

  /** `a + b + c`, with where each part lies. */
  function Around(a: string, b: string, c: string): (r: string)
    ensures |r| == |a| + |b| + |c|
    ensures r[..|a|] == a && r[|a|..|a| + |b|] == b && r[|a| + |b|..] == c
  {
    a + b + c
  }

  /** The icon's tooltip: the country's name, the message, then the phrase
      in parentheses. */
  function TooltipTitle(country: Country, message: string, icon: string): (r: string)
    ensures |r| == |NameText(country)| + |message| + |TooltipPhrase(icon)| + 5
    ensures r[..|NameText(country)| + 2] == NameText(country) + ": "
    ensures r[|NameText(country)| + 2..|NameText(country)| + 2 + |message|] == message
    ensures EndsWith(r, " (" + TooltipPhrase(icon) + ")")
  {
    Around(NameText(country) + ": ", message, " (" + TooltipPhrase(icon) + ")")
  }

  /** For an indicator the classifier made, the tooltip says "in business
      hours" exactly when the status is available, "near" exactly when it
      is soon, and "outside" for ended and unavailable alike. */
  lemma TooltipFollowsStatus(country: Option<Country>, reading: ClockReading)
    requires GetTimezoneIcon(country, reading).Some?
    ensures var r := GetTimezoneIcon(country, reading).value;
            && (TooltipPhrase(r.icon) == "In business hours" <==> r.status == Available)
            && (TooltipPhrase(r.icon) == "Near business hours" <==> r.status == Soon)
            && (TooltipPhrase(r.icon) == "Outside business hours" <==> r.status in {Ended, Unavailable})
  {
    var r := GetTimezoneIcon(country, reading).value;
    assert GreenCircle != YellowCircle && GreenCircle != BlueCircle && GreenCircle != RedCircle;
    assert YellowCircle != BlueCircle && YellowCircle != RedCircle;
  }

  /** The tooltip shown for a classifier result closes with "(In business
      hours)" exactly when the status is available, and with "(Near
      business hours)" exactly when it is soon. */
  lemma TitleFollowsStatus(country: Country, reading: ClockReading)
    requires GetTimezoneIcon(Some(country), reading).Some?
    ensures var r := GetTimezoneIcon(Some(country), reading).value;
            var t := TooltipTitle(country, r.message, r.icon);
            && (EndsWith(t, " (In business hours)") <==> r.status == Available)
            && (EndsWith(t, " (Near business hours)") <==> r.status == Soon)
  {
    var r := GetTimezoneIcon(Some(country), reading).value;
    TitleOfIcon(country, r.message, r.icon);
    IconOfDistinct(r.status);
  }

  /** Only available is shown green, and only soon yellow. */
  lemma IconOfDistinct(s: Status)
    ensures IconOf(s) == GreenCircle <==> s == Available
    ensures IconOf(s) == YellowCircle <==> s == Soon
  {
    assert GreenCircle != YellowCircle && GreenCircle != BlueCircle && GreenCircle != RedCircle;
    assert YellowCircle != BlueCircle && YellowCircle != RedCircle;
  }

  /** The title closes with "(In business hours)" exactly for the green icon
      and with "(Near business hours)" exactly for the yellow one. */
  lemma TitleOfIcon(country: Country, message: string, icon: string)
    ensures var t := TooltipTitle(country, message, icon);
            && (EndsWith(t, " (In business hours)") <==> icon == GreenCircle)
            && (EndsWith(t, " (Near business hours)") <==> icon == YellowCircle)
  {
    ClosingPhrase(icon);
    PhraseSuffixes(TooltipTitle(country, message, icon), " (" + TooltipPhrase(icon) + ")");
  }

  /** The parenthesised phrase closing a title, for each icon. */
  lemma ClosingPhrase(icon: string)
    ensures var x := " (" + TooltipPhrase(icon) + ")";
            && (icon == GreenCircle ==> x == " (In business hours)")
            && (icon == YellowCircle ==> x == " (Near business hours)")
            && (icon != GreenCircle && icon != YellowCircle ==> x == " (Outside business hours)")
  {
    if icon == GreenCircle {
      assert " (" + "In business hours" + ")" == " (In business hours)";
    } else if icon == YellowCircle {
      assert " (" + "Near business hours" + ")" == " (Near business hours)";
    } else {
      assert " (" + "Outside business hours" + ")" == " (Outside business hours)";
    }
  }

  /** No closing phrase is a suffix of another. */
  lemma PhraseSuffixes(t: string, x: string)
    requires x in {" (In business hours)", " (Near business hours)", " (Outside business hours)"}
    requires EndsWith(t, x)
    ensures EndsWith(t, " (In business hours)") <==> x == " (In business hours)"
    ensures EndsWith(t, " (Near business hours)") <==> x == " (Near business hours)"
  {
    var inside, near, outside := " (In business hours)", " (Near business hours)", " (Outside business hours)";
    PhrasesNotSuffixes();
    if EndsWith(t, inside) && x != inside {
      SuffixOfSuffix(t, x, inside);
    }
    if EndsWith(t, near) && x != near {
      if x == inside {
        SuffixOfSuffix(t, near, inside);
      } else {
        SuffixOfSuffix(t, x, near);
      }
    }
  }

  /** The three closing phrases, as suffixes: none ends another. */
  lemma PhrasesNotSuffixes()
    ensures !EndsWith(" (Near business hours)", " (In business hours)")
    ensures !EndsWith(" (Outside business hours)", " (In business hours)")
    ensures !EndsWith(" (Outside business hours)", " (Near business hours)")
  {
    NotSuffix(" (Near business hours)", " (In business hours)");
    NotSuffix(" (Outside business hours)", " (In business hours)");
    NotSuffix(" (Outside business hours)", " (Near business hours)");
  }

  /** A text is not a suffix of one whose character where it would begin differs. */
  lemma NotSuffix(x: string, y: string)
    requires y != [] && |y| <= |x| && x[|x| - |y|] != y[0]
    ensures !EndsWith(x, y)
  {
    assert x[|x| - |y|..][0] == x[|x| - |y|];
  }

  /** Two suffixes of one text: the shorter is a suffix of the longer. */
  lemma SuffixOfSuffix(t: string, x: string, y: string)
    requires EndsWith(t, x) && EndsWith(t, y) && |y| <= |x|
    ensures EndsWith(x, y)
  {
    assert x[|x| - |y|..] == t[|t| - |y|..];
  }

  /** The indicator's colours follow its status: green while available, red
      when unavailable, and so on. */
  lemma IndicatorColours(country: Option<Country>, reading: ClockReading)
    requires GetTimezoneIcon(country, reading).Some?
    ensures var r := GetTimezoneIcon(country, reading).value;
            && (r.status == Available <==> StatusPalette(r.status.Name()) == GreenPalette)
            && (r.status == Unavailable <==> StatusPalette(r.status.Name()) == RedPalette)
  {
  }
}

=== FILE: lookup.dfy ===
/** One record of the country table. The table itself is loaded from a file
    outside the core, so every field may be missing, as JavaScript's optional
    chaining in the popup expects. */
module Countries {
  import opened Opt

  datatype Country = Country(
    countryName: Option<string>,        // 'Country Name'
    capital: Option<string>,            // Capital
    iso2: Option<string>,               // ISO2
    iso3: Option<string>,               // ISO3
    fips: Option<string>,               // FIPS
    topLevelDomain: Option<string>,     // 'Top Level Domain'
    phoneCode: Option<string>,          // 'Phone Code'
    timeZoneInCapital: Option<string>   // 'Time Zone in Capital'
  )

  /** JavaScript truthiness of an optional string field: present and non-empty. */
  predicate Truthy(field: Option<string>) {
    field.Some? && field.value != []
  }
}

/** The content script's dialing-code lookup (`findCountryByPhoneCode`): the
    first record, in table order, whose phone code has the same digits as the
    query. Nothing else about the codes is interpreted. */
module PhoneLookup {
  import opened Opt
  import opened Text
  import opened Countries
  import opened Scan

  /** `String(country['Phone Code'])`: a missing code reads as "undefined". */
  function CodeText(c: Country): string {
    match c.phoneCode
    case Some(p) => p
    case None => "undefined"
  }

  /** The comparison made for each record: digits-only code equals the digits-only query. */
  predicate CodeMatches(c: Country, cleanCode: string) {
    DigitsOf(CodeText(c)) == cleanCode
  }

  /** `Array.find` over the table: the index of the first matching record. */
  function FirstMatch(table: seq<Country>, cleanCode: string): (r: Option<nat>)
    ensures r.Some? ==> r.value < |table| && CodeMatches(table[r.value], cleanCode)
    ensures r.Some? ==> forall j :: 0 <= j < r.value ==> !CodeMatches(table[j], cleanCode)
    ensures r.None? <==> forall j :: 0 <= j < |table| ==> !CodeMatches(table[j], cleanCode)
  {
    FirstAccepted(table, c => CodeMatches(c, cleanCode))
  }

  /** The record whose digits-only phone code equals the digits-only query,
      the first such in table order, or nothing when none does. */
  function FindCountryByPhoneCode(table: seq<Country>, phoneCode: string): (r: Option<Country>)
    ensures r.Some? ==> exists i :: 0 <= i < |table| && table[i] == r.value
                          && CodeMatches(table[i], DigitsOf(phoneCode))
                          && forall j :: 0 <= j < i ==> !CodeMatches(table[j], DigitsOf(phoneCode))
    ensures r.None? <==> forall j :: 0 <= j < |table| ==> !CodeMatches(table[j], DigitsOf(phoneCode))
  {
    match FirstMatch(table, DigitsOf(phoneCode))
    case None => None
    case Some(i) => Some(table[i])
  }

  /** Characters other than digits anywhere around the query change nothing:
      "+91", "91" and "(91)" find the same record. */
  lemma LookupIgnoresDecoration(table: seq<Country>, before: string, code: string, after: string)
    requires forall i :: 0 <= i < |before| ==> !IsDigit(before[i])
    requires forall i :: 0 <= i < |after| ==> !IsDigit(after[i])
    ensures FindCountryByPhoneCode(table, before + code + after) == FindCountryByPhoneCode(table, code)
  {
    assert DigitsOf(before + code + after) == DigitsOf(code) by {
      DigitsOfConcat(before + code, after);
      DigitsOfConcat(before, code);
      DigitsOfNoDigits(before);
      DigitsOfNoDigits(after);
      assert [] + DigitsOf(code) + [] == DigitsOf(code);
    }
  }

  lemma PlusAndParenthesesIgnored(table: seq<Country>)
    ensures FindCountryByPhoneCode(table, "+91") == FindCountryByPhoneCode(table, "91")
    ensures FindCountryByPhoneCode(table, "(91)") == FindCountryByPhoneCode(table, "91")
  {
    assert DigitsOf("+91") == "91";
    assert DigitsOf("(91)") == "91";
    assert DigitsOf("91") == "91";
  }
}

=== FILE: parse.dfy ===
/** The content script's `parsePhoneNumber`: the text is trimmed and matched
    against six anchored regular expressions in a fixed order; the first that
    matches supplies its first capture group, a 1–4 digit country code.

    Every pattern has the shape `^\(?\+?(\d{1,4})TAIL$` (the `\(?` only in the
    fifth), where TAIL is a concatenation of greedy quantifiers over single
    character classes. Such a regular expression is modelled as:
    - the optional prefix characters, taken when present (neither `(` nor `+`
      is a digit, so a match that skipped a present one could not continue
      with `\d`);
    - the greedy `\d{1,4}`, which backtracks from four digits down to one and
      keeps the first length whose remainder the tail accepts;
    - the tail, as the language of a sequence of quantified character classes. */
module PhoneParse {
  import opened Opt
  import opened Text
  import opened Scan

  /** The character classes the six tails use. */
  datatype CharClass = Digit | Space | SpaceOrHyphen | CloseParen

  predicate InClass(k: CharClass, c: char) {
    match k
    case Digit => IsDigit(c)                       // \d
    case Space => IsSpace(c)                       // \s
    case SpaceOrHyphen => c == '-' || IsSpace(c)   // [-\s]
    case CloseParen => c == ')'                    // \)
  }

  datatype Limit = UpTo(n: nat) | NoLimit

  /** One quantified character class: `k{atLeast,atMost}`. */
  datatype Run = Run(cls: CharClass, atLeast: nat, atMost: Limit)

  function Optional(k: CharClass): Run { Run(k, 0, UpTo(1)) }       // k?
  function Single(k: CharClass): Run { Run(k, 1, UpTo(1)) }         // k
  function Star(k: CharClass): Run { Run(k, 0, NoLimit) }           // k*
  function Plus(k: CharClass): Run { Run(k, 1, NoLimit) }           // k+
  function AtLeastTwo(k: CharClass): Run { Run(k, 2, NoLimit) }     // k{2,}

  /** `t` is a possible text for the run `r`. */
  predicate Fits(r: Run, t: string) {
    && r.atLeast <= |t|
    && (r.atMost.UpTo? ==> |t| <= r.atMost.n)
    && forall i :: 0 <= i < |t| ==> InClass(r.cls, t[i])
  }

  /** `t` as a whole is in the language of the concatenation `runs`. */
  predicate Matches(runs: seq<Run>, t: string)
    decreases |runs|
  {
    if runs == [] then t == []
    else exists k :: 0 <= k <= |t| && Fits(runs[0], t[..k]) && Matches(runs[1..], t[k..])
  }

  /** One of the six patterns: whether it starts with `\(?`, and its tail. */
  datatype Pattern = Pattern(openParen: bool, tail: seq<Run>)

  /** The pattern list of content.js, in the order it is tried. */
  const Patterns: seq<Pattern> := [
    // ^\+?(\d{1,4})[-\s]+(\d+[-\s]*\d*)$
    Pattern(false, [Plus(SpaceOrHyphen), Plus(Digit), Star(SpaceOrHyphen), Star(Digit)]),
    // ^\+?(\d{1,4})\s+(\d+\s+\d+)$
    Pattern(false, [Plus(Space), Plus(Digit), Plus(Space), Plus(Digit)]),
    // ^\+?(\d{1,4})[-\s](\d+)$
    Pattern(false, [Single(SpaceOrHyphen), Plus(Digit)]),
    // ^\+?(\d{1,4})\s+(\d+)$
    Pattern(false, [Plus(Space), Plus(Digit)]),
    // ^\(?\+?(\d{1,4})\)?[-\s]?(\d+)$
    Pattern(true, [Optional(CloseParen), Optional(SpaceOrHyphen), Plus(Digit)]),
    // ^\+?(\d{1,4})[-\s]*(\d{2,})[-\s]*(\d+)$
    Pattern(false, [Star(SpaceOrHyphen), AtLeastTwo(Digit), Star(SpaceOrHyphen), Plus(Digit)])
  ]

  /** Six patterns; only the fifth admits an opening parenthesis, and no
      tail starts with a `\d` run. */
  lemma PatternsShape()
    ensures |Patterns| == 6
    ensures forall j :: 0 <= j < |Patterns| ==> (Patterns[j].openParen <==> j == 4)
    ensures forall j :: 0 <= j < |Patterns| ==> Patterns[j].tail != [] && Patterns[j].tail[0].cls != Digit
  {
  }

  /** An optional leading character, taken when present. */
  function SkipIf(c: char, s: string): string {
    if s != [] && s[0] == c then s[1..] else s
  }

  /** The text where the capture group `(\d{1,4})` of `p` starts. */
  function AfterPrefix(p: Pattern, s: string): string {
    SkipIf('+', if p.openParen then SkipIf('(', s) else s)
  }

  /** The first `len` characters of `body` are digits and the tail accepts the rest. */
  predicate CodeSplit(body: string, tail: seq<Run>, len: nat) {
    1 <= len <= |body| && AllDigits(body[..len]) && Matches(tail, body[len..])
  }

  /** Greedy `\d{1,4}` followed by the tail: the longest admissible code
      length, tried from `len` down to one. */
  function LongestCode(body: string, tail: seq<Run>, len: nat): (r: Option<string>)
    requires len <= 4
    ensures r.Some? ==> 1 <= |r.value| <= len && CodeSplit(body, tail, |r.value|)
                        && r.value == body[..|r.value|]
    ensures r.Some? ==> forall l :: |r.value| < l <= len ==> !CodeSplit(body, tail, l)
    ensures r.None? <==> forall l :: 1 <= l <= len ==> !CodeSplit(body, tail, l)
    decreases len
  {
    if len == 0 then None
    else if CodeSplit(body, tail, len) then Some(body[..len])
    else LongestCode(body, tail, len - 1)
  }

  /** `s.match(p)[1]`, or nothing when `p` does not match `s`. */
  function PatternCode(p: Pattern, s: string): Option<string> {
    LongestCode(AfterPrefix(p, s), p.tail, 4)
  }

  /** The check made on `match[1]` before it is returned. */
  predicate Accepted(m: Option<string>) {
    m.Some? && 1 <= |m.value| <= 4
  }

  /** A capture, when there is one, always passes the length check. */
  lemma CaptureAccepted(p: Pattern, s: string)
    ensures Accepted(PatternCode(p, s)) <==> PatternCode(p, s).Some?
  {
  }

  /** The loop over the patterns: the first whose capture is accepted, which
      is the first that matches at all. */
  function FirstPattern(ps: seq<Pattern>, s: string): (r: Option<nat>)
    ensures r.Some? ==> r.value < |ps| && PatternCode(ps[r.value], s).Some?
    ensures r.Some? ==> forall j :: 0 <= j < r.value ==> PatternCode(ps[j], s).None?
    ensures r.None? <==> forall j :: 0 <= j < |ps| ==> PatternCode(ps[j], s).None?
  {
    assert forall j :: 0 <= j < |ps| ==> (Accepted(PatternCode(ps[j], s)) <==> PatternCode(ps[j], s).Some?) by {
      forall j | 0 <= j < |ps| ensures Accepted(PatternCode(ps[j], s)) <==> PatternCode(ps[j], s).Some? {
        CaptureAccepted(ps[j], s);
      }
    }
    FirstAccepted(ps, p => Accepted(PatternCode(p, s)))
  }

  datatype ParsedPhone = ParsedPhone(countryCode: string, fullNumber: string)

  /** `parsePhoneNumber`: null, or the capture of the first matching pattern
      (1–4 ASCII digits) together with the trimmed text. */
  function ParsePhoneNumber(phoneText: string): (r: Option<ParsedPhone>)
    ensures r.Some? ==> r.value.fullNumber == Trim(phoneText)
    ensures r.Some? ==> 1 <= |r.value.countryCode| <= 4 && AllDigits(r.value.countryCode)
    ensures r.None? <==> forall j :: 0 <= j < |Patterns| ==> PatternCode(Patterns[j], Trim(phoneText)).None?
    ensures r.Some? ==> exists i :: 0 <= i < |Patterns|
                          && PatternCode(Patterns[i], Trim(phoneText)) == Some(r.value.countryCode)
                          && forall j :: 0 <= j < i ==> PatternCode(Patterns[j], Trim(phoneText)).None?
  {
    var cleaned := Trim(phoneText);
    match FirstPattern(Patterns, cleaned)
    case None => None
    case Some(i) => Some(ParsedPhone(PatternCode(Patterns[i], cleaned).value, cleaned))
  }
}

=== FILE: parse_facts.dfy ===
/** Facts about the language of a sequence of quantified character classes,
    used to decide which of the six phone patterns can match a given shape
    of text. */
module RunLanguage {
  import opened Text
  import opened PhoneParse

  /** Appending a fitting piece in front of an accepted remainder. */
  lemma MatchesCons(runs: seq<Run>, a: string, b: string)
    requires runs != [] && Fits(runs[0], a) && Matches(runs[1..], b)
    ensures Matches(runs, a + b)
  {
    assert (a + b)[..|a|] == a;
    assert (a + b)[|a|..] == b;
  }

  /** The empty text is accepted exactly when no run is mandatory. */
  lemma {:induction false} MatchesEmptyText(runs: seq<Run>)
    ensures Matches(runs, []) <==> forall i :: 0 <= i < |runs| ==> runs[i].atLeast == 0
  {
    if runs != [] {
      MatchesEmptyText(runs[1..]);
      var e: string := [];
      if forall i :: 0 <= i < |runs| ==> runs[i].atLeast == 0 {
        assert forall i :: 0 <= i < |runs[1..]| ==> runs[1..][i].atLeast == 0 by {
          forall i | 0 <= i < |runs[1..]| ensures runs[1..][i].atLeast == 0 {
            assert runs[1..][i] == runs[i + 1];
          }
        }
        assert e[..0] == e && e[0..] == e;
        assert Fits(runs[0], e[..0]) && Matches(runs[1..], e[0..]);
      }
      if Matches(runs, []) {
        forall i | 0 <= i < |runs| ensures runs[i].atLeast == 0 {
          if i > 0 { assert runs[i] == runs[1..][i - 1]; }
        }
      }
    }
  }

  /** A mandatory run leaves at least one character of its class in the text. */
  lemma {:induction false} MandatoryRunLeavesChar(runs: seq<Run>, t: string, j: nat)
    requires j < |runs| && runs[j].atLeast >= 1 && Matches(runs, t)
    ensures exists i :: 0 <= i < |t| && InClass(runs[j].cls, t[i])
  {
    var k :| 0 <= k <= |t| && Fits(runs[0], t[..k]) && Matches(runs[1..], t[k..]);
    if j == 0 {
      assert t[..k][0] == t[0];
    } else {
      assert runs[1..][j - 1] == runs[j];
      MandatoryRunLeavesChar(runs[1..], t[k..], j - 1);
      var i :| 0 <= i < |t[k..]| && InClass(runs[j].cls, t[k..][i]);
      assert t[k..][i] == t[k + i];
    }
  }

  /** No digit belongs to any of the other classes. */
  lemma DigitOnlyInDigitClass(k: CharClass, c: char)
    requires InClass(k, c) && IsDigit(c)
    ensures k == Digit
  {
  }

  /** Text made of digits alone cannot satisfy a mandatory separator run. */
  lemma DigitsMissMandatorySeparator(runs: seq<Run>, t: string, j: nat)
    requires j < |runs| && runs[j].atLeast >= 1 && runs[j].cls != Digit
    requires AllDigits(t)
    ensures !Matches(runs, t)
  {
    if Matches(runs, t) {
      MandatoryRunLeavesChar(runs, t, j);
      var i :| 0 <= i < |t| && InClass(runs[j].cls, t[i]);
      DigitOnlyInDigitClass(runs[j].cls, t[i]);
    }
  }

  /** Whether the character at `i` starts a maximal run of digits. */
  predicate StartsDigitBlock(t: string, i: nat)
    requires i < |t|
  {
    IsDigit(t[i]) && (i == 0 || !IsDigit(t[i - 1]))
  }

  /** The number of maximal runs of digits in `t`. */
  function DigitBlocks(t: string): nat {
    if t == [] then 0
    else DigitBlocks(t[..|t| - 1]) + (if StartsDigitBlock(t, |t| - 1) then 1 else 0)
  }

  /** Gluing two texts never creates a digit run: it can only join two. */
  lemma {:induction false} DigitBlocksConcat(a: string, b: string)
    ensures DigitBlocks(a + b) <= DigitBlocks(a) + DigitBlocks(b)
  {
    if b == [] {
      assert a + b == a;
    } else {
      var b' := b[..|b| - 1];
      assert (a + b)[..|a + b| - 1] == a + b';
      DigitBlocksConcat(a, b');
      var n := |a + b| - 1;
      assert (a + b)[n] == b[|b| - 1];
      if |b| >= 2 {
        assert (a + b)[n - 1] == b[|b| - 2];
      }
    }
  }

  /** Where the seam is not digit against digit, the digit runs of the two
      parts add up. */
  lemma {:induction false} DigitBlocksJoin(a: string, b: string)
    requires a == [] || b == [] || !IsDigit(a[|a| - 1]) || !IsDigit(b[0])
    ensures DigitBlocks(a + b) == DigitBlocks(a) + DigitBlocks(b)
  {
    if b == [] {
      assert a + b == a;
    } else {
      var b' := b[..|b| - 1];
      assert (a + b)[..|a + b| - 1] == a + b';
      assert b' == [] || b'[0] == b[0];
      DigitBlocksJoin(a, b');
      var n := |a + b| - 1;
      assert (a + b)[n] == b[|b| - 1];
      if |b| >= 2 {
        assert (a + b)[n - 1] == b[|b| - 2];
      } else if a != [] {
        assert (a + b)[n - 1] == a[|a| - 1];
      }
    }
  }

  /** The digit runs of a text drawn from one class. */
  lemma {:induction false} ClassDigitBlocks(k: CharClass, t: string)
    requires forall i :: 0 <= i < |t| ==> InClass(k, t[i])
    ensures k == Digit ==> DigitBlocks(t) <= 1
    ensures k != Digit ==> DigitBlocks(t) == 0
  {
    if t != [] {
      var t' := t[..|t| - 1];
      ClassDigitBlocks(k, t');
      if k != Digit && IsDigit(t[|t| - 1]) {
        DigitOnlyInDigitClass(k, t[|t| - 1]);
      }
      if k == Digit && |t| >= 2 {
        assert IsDigit(t[|t| - 2]);
        if DigitBlocks(t') == 0 {
          AllDigitsHasABlock(t');
        }
      }
    }
  }

  /** A non-empty all-digit text has one digit run. */
  lemma AllDigitsHasABlock(t: string)
    requires t != [] && AllDigits(t)
    ensures DigitBlocks(t) >= 1
    decreases |t|
  {
    if |t| > 1 {
      AllDigitsHasABlock(t[..|t| - 1]);
    }
  }

  /** How many runs of the concatenation are over `\d`. */
  function DigitRuns(runs: seq<Run>): nat {
    if runs == [] then 0 else (if runs[0].cls == Digit then 1 else 0) + DigitRuns(runs[1..])
  }

  /** A text accepted by `runs` has no more digit runs than `runs` has `\d` items. */
  lemma {:induction false} MatchesBoundsDigitBlocks(runs: seq<Run>, t: string)
    requires Matches(runs, t)
    ensures DigitBlocks(t) <= DigitRuns(runs)
  {
    if runs != [] {
      var k :| 0 <= k <= |t| && Fits(runs[0], t[..k]) && Matches(runs[1..], t[k..]);
      MatchesBoundsDigitBlocks(runs[1..], t[k..]);
      ClassDigitBlocks(runs[0].cls, t[..k]);
      assert t == t[..k] + t[k..];
      DigitBlocksConcat(t[..k], t[k..]);
    }
  }
}

=== FILE: phone_shapes.dfy ===
/** What `parsePhoneNumber` returns for the shapes of text it meets: digits
    with separators, bare digits, a parenthesised code, and the multi-group
    layout that none of its patterns accepts. */
module PhoneShapes {
  import opened Opt
  import opened Text
  import opened PhoneParse
  import opened RunLanguage

  function Min(a: int, b: int): int { if a < b then a else b }

  /** The optional leading `+`. */
  function PlusSign(plus: bool): string { if plus then "+" else "" }

  predicate AllSeparators(s: string) {
    forall i :: 0 <= i < |s| ==> InClass(SpaceOrHyphen, s[i])
  }

  /** Pattern `i` is the first to match, with capture `code`: the parse returns it. */
  lemma DecidedBy(text: string, i: nat, code: string)
    requires i < |Patterns|
    requires forall j :: 0 <= j < i ==> PatternCode(Patterns[j], Trim(text)).None?
    requires PatternCode(Patterns[i], Trim(text)) == Some(code)
    ensures ParsePhoneNumber(text) == Some(ParsedPhone(code, Trim(text)))
  {
    var r := ParsePhoneNumber(text);
    assert r.Some?;
    var i' :| 0 <= i' < |Patterns|
              && PatternCode(Patterns[i'], Trim(text)) == Some(r.value.countryCode)
              && forall j :: 0 <= j < i' ==> PatternCode(Patterns[j], Trim(text)).None?;
    assert i' == i;
  }

  /** A pattern fails when no code length from one to four splits its body. */
  lemma NoSplitNoCode(p: Pattern, s: string)
    requires forall l :: 1 <= l <= 4 ==> !CodeSplit(AfterPrefix(p, s), p.tail, l)
    ensures PatternCode(p, s).None?
  {
  }

  /** A body that does not start with a digit gives no code. */
  lemma NoLeadingDigitNoCode(p: Pattern, s: string)
    requires var b := AfterPrefix(p, s); b == [] || !IsDigit(b[0])
    ensures PatternCode(p, s).None?
  {
    var b := AfterPrefix(p, s);
    forall l | 1 <= l <= 4 ensures !CodeSplit(b, p.tail, l) {
      if l <= |b| { assert b[..l][0] == b[0]; }
    }
  }

  /** The longest admissible length is the one the greedy `\d{1,4}` keeps. */
  lemma LongestIs(body: string, tail: seq<Run>, m: nat)
    requires 1 <= m <= 4 && CodeSplit(body, tail, m)
    requires forall l :: m < l <= 4 ==> !CodeSplit(body, tail, l)
    ensures LongestCode(body, tail, 4) == Some(body[..m])
  {
  }

  /** The greedy code stops at the first non-digit when the tail accepts what follows. */
  lemma CodeEndsAtNonDigit(body: string, code: string, rest: string, tail: seq<Run>)
    requires 1 <= |code| <= 4 && AllDigits(code) && body == code + rest
    requires rest != [] && !IsDigit(rest[0]) && Matches(tail, rest)
    ensures LongestCode(body, tail, 4) == Some(code)
  {
    assert body[..|code|] == code && body[|code|..] == rest;
    assert CodeSplit(body, tail, |code|);
    forall l | |code| < l <= 4 ensures !CodeSplit(body, tail, l) {
      if l <= |body| {
        assert body[..l][|code|] == rest[0];
      }
    }
    LongestIs(body, tail, |code|);
  }

  /** The first pattern's tail `[-\s]+\d+[-\s]*\d*` accepts separators, digits,
      separators, digits. */
  lemma FirstTailAccepts(sep: string, d1: string, sep2: string, d2: string)
    requires |sep| >= 1 && AllSeparators(sep)
    requires |d1| >= 1 && AllDigits(d1)
    requires AllSeparators(sep2) && AllDigits(d2)
    ensures Matches(Patterns[0].tail, sep + d1 + sep2 + d2)
  {
    var t := Patterns[0].tail;
    TwoRunsThen(t[2..], sep2, d2, []);
    assert sep2 + d2 + [] == sep2 + d2;
    TwoRunsThen(t, sep, d1, sep2 + d2);
    assert sep + d1 + (sep2 + d2) == sep + d1 + sep2 + d2;
  }

  /** Two fitting pieces in front of a remainder the later runs accept. */
  lemma TwoRunsThen(runs: seq<Run>, a: string, b: string, rest: string)
    requires |runs| >= 2 && Fits(runs[0], a) && Fits(runs[1], b) && Matches(runs[2..], rest)
    ensures Matches(runs, a + b + rest)
  {
    assert runs[1..][1..] == runs[2..];
    MatchesCons(runs[1..], b, rest);
    MatchesCons(runs, a, b + rest);
    assert a + (b + rest) == a + b + rest;
  }

  /** The body of `+C SEP D1 [SEP D2]` gives C under the first pattern. */
  lemma SeparatedCode(s: string, plus: bool, code: string, sep: string, d1: string,
                      sep2: string, d2: string)
    requires 1 <= |code| <= 4 && AllDigits(code)
    requires |sep| >= 1 && AllSeparators(sep)
    requires |d1| >= 1 && AllDigits(d1)
    requires AllSeparators(sep2) && AllDigits(d2)
    requires s == PlusSign(plus) + code + sep + d1 + sep2 + d2
    ensures PatternCode(Patterns[0], s) == Some(code)
  {
    var rest := sep + d1 + sep2 + d2;
    var body := code + rest;
    assert s == PlusSign(plus) + body;
    assert AfterPrefix(Patterns[0], s) == body by {
      if !plus { assert s[0] == code[0]; }
    }
    FirstTailAccepts(sep, d1, sep2, d2);
    assert rest[0] == sep[0];
    CodeEndsAtNonDigit(body, code, rest, Patterns[0].tail);
  }

  /** Input of the form `+C SEP D1 [SEP D2]` (the `+` optional, C one to
      four digits, SEP a non-empty run of spaces and hyphens, D1 a non-empty
      digit run, then optionally more separators and digits) yields C: the
      first pattern accepts it, with the longest code stopped by the separator. */
  lemma SeparatedInput(text: string, plus: bool, code: string, sep: string, d1: string,
                       sep2: string, d2: string)
    requires 1 <= |code| <= 4 && AllDigits(code)
    requires |sep| >= 1 && AllSeparators(sep)
    requires |d1| >= 1 && AllDigits(d1)
    requires AllSeparators(sep2) && AllDigits(d2)
    requires Trim(text) == PlusSign(plus) + code + sep + d1 + sep2 + d2
    ensures ParsePhoneNumber(text) == Some(ParsedPhone(code, Trim(text)))
  {
    SeparatedCode(Trim(text), plus, code, sep, d1, sep2, d2);
    DecidedBy(text, 0, code);
  }

  /** With or without its `+`, an all-digit text is the body of every pattern. */
  lemma DigitsAreBody(s: string, plus: bool, d: string, j: nat)
    requires AllDigits(d) && s == PlusSign(plus) + d && j < |Patterns|
    ensures AfterPrefix(Patterns[j], s) == d
  {
    if !plus && d != [] { assert s[0] == d[0]; }
  }

  /** The first four patterns need a separator right after the code. */
  lemma DigitsMissSeparatorPatterns(s: string, plus: bool, d: string, j: nat)
    requires AllDigits(d) && s == PlusSign(plus) + d && j < 4
    ensures PatternCode(Patterns[j], s).None?
  {
    DigitsAreBody(s, plus, d, j);
    var p := Patterns[j];
    assert p.tail[0].atLeast >= 1 && p.tail[0].cls != Digit;
    forall l | 1 <= l <= 4 ensures !CodeSplit(d, p.tail, l) {
      if l <= |d| {
        DigitsMissMandatorySeparator(p.tail, d[l..], 0);
      }
    }
  }

  /** The fifth pattern's tail `\)?[-\s]?\d+` accepts any non-empty digit run. */
  lemma FifthTailAcceptsDigits(d: string)
    requires |d| >= 1 && AllDigits(d)
    ensures Matches(Patterns[4].tail, d)
  {
    FifthTailAccepts([], [], d);
    assert [] + [] + d == d;
  }

  /** The fifth pattern's tail accepts an optional `)`, an optional separator
      and a non-empty digit run. */
  lemma FifthTailAccepts(close: string, sep: string, d: string)
    requires close == [] || close == ")"
    requires |sep| <= 1 && AllSeparators(sep)
    requires |d| >= 1 && AllDigits(d)
    ensures Matches(Patterns[4].tail, close + sep + d)
  {
    var t := Patterns[4].tail;
    assert Fits(t[2], d);
    MatchesCons(t[2..], d, []);
    assert d + [] == d;
    TwoRunsThen(t, close, sep, d);
  }

  /** Under the fifth pattern the code of an all-digit body leaves one digit. */
  lemma DigitsFifthPattern(s: string, plus: bool, d: string)
    requires AllDigits(d) && |d| >= 2 && s == PlusSign(plus) + d
    ensures PatternCode(Patterns[4], s) == Some(d[..Min(4, |d| - 1)])
  {
    DigitsAreBody(s, plus, d, 4);
    var m := Min(4, |d| - 1);
    var p := Patterns[4];
    FifthTailAcceptsDigits(d[m..]);
    assert CodeSplit(d, p.tail, m);
    FifthTailRejectsEmpty();
    forall l | m < l <= 4 ensures !CodeSplit(d, p.tail, l) {
      if l == |d| {
        assert d[l..] == [];
      }
    }
    LongestIs(d, p.tail, m);
  }

  /** The fifth pattern's `(\d+)` cannot be empty. */
  lemma FifthTailRejectsEmpty()
    ensures !Matches(Patterns[4].tail, [])
  {
    MatchesEmptyText(Patterns[4].tail);
    assert Patterns[4].tail[2].atLeast == 1;
  }

  /** Separator-free input of k >= 2 digits, with or without a leading `+`,
      yields its first min(4, k - 1) digits: the first four patterns all need
      a separator, and the fifth keeps at least one digit for its `(\d+)`. */
  lemma DigitsOnlyInput(text: string, plus: bool, d: string)
    requires AllDigits(d) && |d| >= 2
    requires Trim(text) == PlusSign(plus) + d
    ensures ParsePhoneNumber(text) == Some(ParsedPhone(d[..Min(4, |d| - 1)], Trim(text)))
  {
    var s := Trim(text);
    forall j | 0 <= j < 4 ensures PatternCode(Patterns[j], s).None? {
      DigitsMissSeparatorPatterns(s, plus, d, j);
    }
    DigitsFifthPattern(s, plus, d);
    DecidedBy(text, 4, d[..Min(4, |d| - 1)]);
  }

  /** Every tail has a mandatory `\d` run, so none accepts the empty text. */
  lemma TailNeedsDigit(j: nat) returns (i: nat)
    requires j < |Patterns|
    ensures i < |Patterns[j].tail| && Patterns[j].tail[i].cls == Digit
            && Patterns[j].tail[i].atLeast >= 1
  {
    i := if j == 4 then 2 else 1;
  }

  /** No pattern takes a single digit or less. */
  lemma TooShortForPattern(s: string, plus: bool, d: string, j: nat)
    requires AllDigits(d) && |d| <= 1 && s == PlusSign(plus) + d && j < |Patterns|
    ensures PatternCode(Patterns[j], s).None?
  {
    DigitsAreBody(s, plus, d, j);
    var p := Patterns[j];
    var i := TailNeedsDigit(j);
    MatchesEmptyText(p.tail);
    forall l | 1 <= l <= 4 ensures !CodeSplit(d, p.tail, l) {
      if l <= |d| { assert d[l..] == []; }
    }
  }

  /** Input of at most one digit (after an optional `+`), including empty or
      whitespace-only text, is rejected: every tail needs a digit. */
  lemma TooShortInput(text: string, plus: bool, d: string)
    requires AllDigits(d) && |d| <= 1
    requires Trim(text) == PlusSign(plus) + d
    ensures ParsePhoneNumber(text).None?
  {
    forall j | 0 <= j < |Patterns| ensures PatternCode(Patterns[j], Trim(text)).None? {
      TooShortForPattern(Trim(text), plus, d, j);
    }
  }

  /** The body of `(+C)SEP D` under the fifth pattern gives C. */
  lemma ParenthesisedCode(s: string, plus: bool, code: string, sep: string, d: string)
    requires 1 <= |code| <= 4 && AllDigits(code)
    requires |sep| <= 1 && AllSeparators(sep)
    requires |d| >= 1 && AllDigits(d)
    requires s == "(" + PlusSign(plus) + code + ")" + sep + d
    ensures PatternCode(Patterns[4], s) == Some(code)
  {
    var p := Patterns[4];
    var rest := ")" + sep + d;
    var body := code + rest;
    assert AfterPrefix(p, s) == body by {
      assert s == "(" + (PlusSign(plus) + body);
      assert SkipIf('(', s) == PlusSign(plus) + body;
      if !plus { assert body[0] == code[0]; }
    }
    FifthTailAccepts(")", sep, d);
    CodeEndsAtNonDigit(body, code, rest, p.tail);
  }

  /** Input of the form `(+C)SEP D` (the `+` optional, C one to four digits,
      SEP at most one space or hyphen, D a non-empty digit run) yields C from
      the fifth pattern, the only one that allows the opening parenthesis. */
  lemma ParenthesisedInput(text: string, plus: bool, code: string, sep: string, d: string)
    requires 1 <= |code| <= 4 && AllDigits(code)
    requires |sep| <= 1 && AllSeparators(sep)
    requires |d| >= 1 && AllDigits(d)
    requires Trim(text) == "(" + PlusSign(plus) + code + ")" + sep + d
    ensures ParsePhoneNumber(text) == Some(ParsedPhone(code, Trim(text)))
  {
    var s := Trim(text);
    forall j | 0 <= j < 4 ensures PatternCode(Patterns[j], s).None? {
      assert AfterPrefix(Patterns[j], s) == s;
      NoLeadingDigitNoCode(Patterns[j], s);
    }
    ParenthesisedCode(s, plus, code, sep, d);
    DecidedBy(text, 4, code);
  }

  /** A run of separators holds no digit run, and starts and ends with a non-digit. */
  lemma SeparatorsNoDigits(sep: string)
    requires sep != [] && AllSeparators(sep)
    ensures DigitBlocks(sep) == 0 && !IsDigit(sep[0]) && !IsDigit(sep[|sep| - 1])
  {
    ClassDigitBlocks(SpaceOrHyphen, sep);
  }

  /** A non-empty digit run is one digit run. */
  lemma GroupOneBlock(g: string)
    requires g != [] && AllDigits(g)
    ensures DigitBlocks(g) == 1
  {
    ClassDigitBlocks(Digit, g);
    AllDigitsHasABlock(g);
  }

  /** `SEP D` followed by text that starts with a separator adds one digit run. */
  lemma SeparatedGroupBlocks(sep: string, g: string, more: string)
    requires sep != [] && AllSeparators(sep) && g != [] && AllDigits(g)
    requires more == [] || !IsDigit(more[0])
    ensures DigitBlocks(sep + (g + more)) == 1 + DigitBlocks(more)
    ensures !IsDigit((sep + (g + more))[0])
  {
    SeparatorsNoDigits(sep);
    GroupOneBlock(g);
    DigitBlocksJoin(g, more);
    assert (g + more)[0] == g[0];
    DigitBlocksJoin(sep, g + more);
    assert (sep + (g + more))[0] == sep[0];
  }

  /** What follows a code of `c` digits in `C SEP D SEP D SEP D` has at least
      three digit runs, whatever part of the code the greedy match left. */
  lemma ThreeGroupsAfterCode(c: string, sep1: string, g1: string, sep2: string, g2: string,
                             sep3: string, g3: string)
    requires AllDigits(c)
    requires sep1 != [] && AllSeparators(sep1) && g1 != [] && AllDigits(g1)
    requires sep2 != [] && AllSeparators(sep2) && g2 != [] && AllDigits(g2)
    requires sep3 != [] && AllSeparators(sep3) && g3 != [] && AllDigits(g3)
    ensures DigitBlocks(c + (sep1 + (g1 + (sep2 + (g2 + (sep3 + g3)))))) >= 3
  {
    var e: string := [];
    assert g3 + e == g3;
    SeparatedGroupBlocks(sep3, g3, e);
    var x := sep3 + g3;
    SeparatedGroupBlocks(sep2, g2, x);
    var y := sep2 + (g2 + x);
    SeparatedGroupBlocks(sep1, g1, y);
    var z := sep1 + (g1 + y);
    DigitBlocksJoin(c, z);
  }

  /** The text `+C SEP D SEP D SEP D`. */
  function ThreeGroupText(plus: bool, code: string, sep1: string, g1: string, sep2: string,
                          g2: string, sep3: string, g3: string): string {
    PlusSign(plus) + (code + (sep1 + (g1 + (sep2 + (g2 + (sep3 + g3))))))
  }

  /** No code length splits `C SEP D SEP D SEP D` for a tail with at most
      two `\d` items. */
  lemma ThreeGroupsNoSplit(code: string, v: string, tail: seq<Run>, l: nat,
                           sep1: string, g1: string, sep2: string, g2: string, sep3: string, g3: string)
    requires AllDigits(code) && DigitRuns(tail) <= 2
    requires sep1 != [] && AllSeparators(sep1) && g1 != [] && AllDigits(g1)
    requires sep2 != [] && AllSeparators(sep2) && g2 != [] && AllDigits(g2)
    requires sep3 != [] && AllSeparators(sep3) && g3 != [] && AllDigits(g3)
    requires v == sep1 + (g1 + (sep2 + (g2 + (sep3 + g3))))
    ensures !CodeSplit(code + v, tail, l)
  {
    var body := code + v;
    SeparatorsNoDigits(sep1);
    if |code| < l <= |body| {
      assert body[..l][|code|] == sep1[0];
    } else if 1 <= l <= |code| {
      assert body[l..] == code[l..] + v;
      ThreeGroupsAfterCode(code[l..], sep1, g1, sep2, g2, sep3, g3);
      if Matches(tail, body[l..]) {
        MatchesBoundsDigitBlocks(tail, body[l..]);
      }
    }
  }

  /** Neither `+` nor a separator is a digit, so the code starts after the `+`. */
  lemma ThreeGroupsBody(plus: bool, code: string, v: string, sep1: string, j: nat)
    requires AllDigits(code) && sep1 != [] && AllSeparators(sep1) && v != [] && v[0] == sep1[0]
    requires j < |Patterns|
    ensures AfterPrefix(Patterns[j], PlusSign(plus) + (code + v)) == code + v
  {
    var s := PlusSign(plus) + (code + v);
    SeparatorsNoDigits(sep1);
    if !plus && code != [] { assert s[0] == code[0]; }
    if !plus && code == [] { assert s[0] == v[0]; }
  }

  /** Every tail has at most two `\d` items. */
  lemma TailsTwoDigitRuns(j: nat)
    requires j < |Patterns|
    ensures DigitRuns(Patterns[j].tail) <= 2
  {
  }

  /** One pattern against `C SEP D SEP D SEP D`: no code length splits it. */
  lemma ThreeGroupsPattern(p: Pattern, s: string, code: string, v: string,
                           sep1: string, g1: string, sep2: string, g2: string, sep3: string, g3: string)
    requires AllDigits(code) && DigitRuns(p.tail) <= 2 && AfterPrefix(p, s) == code + v
    requires sep1 != [] && AllSeparators(sep1) && g1 != [] && AllDigits(g1)
    requires sep2 != [] && AllSeparators(sep2) && g2 != [] && AllDigits(g2)
    requires sep3 != [] && AllSeparators(sep3) && g3 != [] && AllDigits(g3)
    requires v == sep1 + (g1 + (sep2 + (g2 + (sep3 + g3))))
    ensures PatternCode(p, s).None?
  {
    forall l | 1 <= l <= 4 ensures !CodeSplit(AfterPrefix(p, s), p.tail, l) {
      ThreeGroupsNoSplit(code, v, p.tail, l, sep1, g1, sep2, g2, sep3, g3);
    }
    NoSplitNoCode(p, s);
  }

  /** Text of the shape `+C SEP D SEP D SEP D` (three digit groups after the
      code, the `+` optional) matches none of the six patterns: each tail has
      at most two `\d` items, so it accepts at most two digit groups. */
  lemma ThreeGroupsRejected(text: string, plus: bool, code: string, sep1: string, g1: string,
                            sep2: string, g2: string, sep3: string, g3: string)
    requires AllDigits(code)
    requires sep1 != [] && AllSeparators(sep1) && g1 != [] && AllDigits(g1)
    requires sep2 != [] && AllSeparators(sep2) && g2 != [] && AllDigits(g2)
    requires sep3 != [] && AllSeparators(sep3) && g3 != [] && AllDigits(g3)
    requires Trim(text) == ThreeGroupText(plus, code, sep1, g1, sep2, g2, sep3, g3)
    ensures ParsePhoneNumber(text).None?
  {
    var s := Trim(text);
    var v := sep1 + (g1 + (sep2 + (g2 + (sep3 + g3))));
    assert v[0] == sep1[0];
    forall j | 0 <= j < |Patterns| ensures PatternCode(Patterns[j], s).None? {
      ThreeGroupsBody(plus, code, v, sep1, j);
      TailsTwoDigitRuns(j);
      ThreeGroupsPattern(Patterns[j], s, code, v, sep1, g1, sep2, g2, sep3, g3);
    }
  }

  /** The layout a comment beside the first pattern cites, `+1 902-481-1350`,
      is rejected: the parse is null. */
  lemma ThreeGroupLayoutRejected()
    ensures ParsePhoneNumber("+1 902-481-1350").None?
  {
    ThreeGroupDigits();
    ShapeThreeGroups();
    ThreeGroupsRejected("+1 902-481-1350", true, "1", " ", "902", "-", "481", "-", "1350");
  }

  lemma ShapeThreeGroups()
    ensures Trim("+1 902-481-1350") == "+1 902-481-1350"
    ensures "+1 902-481-1350" == ThreeGroupText(true, "1", " ", "902", "-", "481", "-", "1350")
  {
    TrimUnchanged("+1 902-481-1350");
  }

  lemma ThreeGroupDigits()
    ensures AllDigits("1") && AllDigits("902") && AllDigits("481") && AllDigits("1350")
    ensures AllSeparators(" ") && AllSeparators("-")
  {
  }

  /** The digit runs of the examples below. */
  lemma ExampleDigits()
    ensures AllDigits("91") && AllDigits("97854") && AllDigits("78207")
    ensures AllDigits("96469") && AllDigits("97676")
    ensures AllDigits("31") && AllDigits("6") && AllDigits("42437939")
    ensures AllDigits("39") && AllDigits("3493433405")
    ensures AllSeparators(" ") && AllSeparators("-") && AllSeparators("")
  {
  }

  lemma ExampleIndiaHyphen()
    ensures ParsePhoneNumber("+91 97854-78207") == Some(ParsedPhone("91", "+91 97854-78207"))
  {
    ExampleDigits();
    ShapeIndiaHyphen();
    SeparatedInput("+91 97854-78207", true, "91", " ", "97854", "-", "78207");
  }

  lemma ShapeIndiaHyphen()
    ensures Trim("+91 97854-78207") == "+91 97854-78207"
    ensures "+91 97854-78207" == PlusSign(true) + "91" + " " + "97854" + "-" + "78207"
  {
    TrimUnchanged("+91 97854-78207");
  }

  lemma ExampleIndiaSpaces()
    ensures ParsePhoneNumber("+91 96469 97676") == Some(ParsedPhone("91", "+91 96469 97676"))
  {
    ExampleDigits();
    ShapeIndiaSpaces();
    SeparatedInput("+91 96469 97676", true, "91", " ", "96469", " ", "97676");
  }

  lemma ShapeIndiaSpaces()
    ensures Trim("+91 96469 97676") == "+91 96469 97676"
    ensures "+91 96469 97676" == PlusSign(true) + "91" + " " + "96469" + " " + "97676"
  {
    TrimUnchanged("+91 96469 97676");
  }

  lemma ExampleNetherlands()
    ensures ParsePhoneNumber("+31 6 42437939") == Some(ParsedPhone("31", "+31 6 42437939"))
  {
    ExampleDigits();
    ShapeNetherlands();
    SeparatedInput("+31 6 42437939", true, "31", " ", "6", " ", "42437939");
  }

  lemma ShapeNetherlands()
    ensures Trim("+31 6 42437939") == "+31 6 42437939"
    ensures "+31 6 42437939" == PlusSign(true) + "31" + " " + "6" + " " + "42437939"
  {
    TrimUnchanged("+31 6 42437939");
  }

  lemma ExampleItalyHyphen()
    ensures ParsePhoneNumber("+39-3493433405") == Some(ParsedPhone("39", "+39-3493433405"))
  {
    ExampleDigits();
    ShapeItalyHyphen();
    SeparatedInput("+39-3493433405", true, "39", "-", "3493433405", "", "");
  }

  lemma ShapeItalyHyphen()
    ensures Trim("+39-3493433405") == "+39-3493433405"
    ensures "+39-3493433405" == PlusSign(true) + "39" + "-" + "3493433405" + "" + ""
  {
    TrimUnchanged("+39-3493433405");
  }

  lemma ExampleItalyHyphenNoPlus()
    ensures ParsePhoneNumber("39-3493433405") == Some(ParsedPhone("39", "39-3493433405"))
  {
    ExampleDigits();
    ShapeItalyHyphenNoPlus();
    SeparatedInput("39-3493433405", false, "39", "-", "3493433405", "", "");
  }

  lemma ShapeItalyHyphenNoPlus()
    ensures Trim("39-3493433405") == "39-3493433405"
    ensures "39-3493433405" == PlusSign(false) + "39" + "-" + "3493433405" + "" + ""
  {
    TrimUnchanged("39-3493433405");
  }

  lemma ExampleItalyParenthesised()
    ensures ParsePhoneNumber("(+39) 3493433405") == Some(ParsedPhone("39", "(+39) 3493433405"))
  {
    ExampleDigits();
    ShapeItalyParenthesised();
    ParenthesisedInput("(+39) 3493433405", true, "39", " ", "3493433405");
  }

  lemma ShapeItalyParenthesised()
    ensures Trim("(+39) 3493433405") == "(+39) 3493433405"
    ensures "(+39) 3493433405" == "(" + PlusSign(true) + "39" + ")" + " " + "3493433405"
  {
    TrimUnchanged("(+39) 3493433405");
  }
}

=== FILE: popup.dfy ===
/** The popup's country search: the filter applied to the country table for
    a query (phone-code prefix, ISO/FIPS code, top-level domain, or every
    query word at a word boundary of the name or of the capital), the
    popup's two pieces of state, `searchQuery` and `results`, and the
    time-zone label shown on each result card. */
module PopupSearch {
  import opened Opt
  import opened Text
  import opened Countries
  import opened Scan

  /** `searchQuery.toLowerCase().trim()`. */
  function SearchTerm(q: string): string {
    Trim(AsciiLower(q))
  }

  /** `searchTerm.startsWith('+') || /^\d+$/.test(searchTerm)`. */
  predicate IsPhoneSearch(t: string) {
    t != [] && (t[0] == '+' || AllDigits(t))
  }

  predicate IsPrefix(p: string, s: string) {
    |p| <= |s| && s[..|p|] == p
  }

  /** The first index of `c` in `s`, if any. */
  function FirstIndex(s: string, c: char): (r: Option<nat>)
    ensures r.Some? ==> r.value < |s| && s[r.value] == c && c !in s[..r.value]
    ensures r.None? <==> c !in s
  {
    FirstAccepted(s, x => x == c)
  }

  /** `s.replace('.', '')`: a string pattern replaces its first occurrence only. */
  function RemoveFirstDot(s: string): (r: string)
    ensures '.' !in s ==> r == s
    ensures '.' in s ==> |r| == |s| - 1
    ensures '.' in s ==> exists i :: 0 <= i < |s| && s[i] == '.' && '.' !in s[..i] && r == s[..i] + s[i + 1..]
  {
    match FirstIndex(s, '.')
    case None => s
    case Some(i) => s[..i] + s[i + 1..]
  }

  /** `field?.toLowerCase() === term`: a missing field equals no string. */
  predicate LowerEquals(field: Option<string>, term: string) {
    field.Some? && AsciiLower(field.value) == term
  }

  /** `field?.toLowerCase() || ''`. */
  function LowerOrEmpty(field: Option<string>): string {
    match field
    case Some(v) => AsciiLower(v)
    case None => []
  }

  // Splitting the query into words, as `split(/\s+/)` does.

  predicate NoSpace(w: string) {
    forall k :: 0 <= k < |w| ==> !IsSpace(w[k])
  }

  /** `s` with its whitespace removed. */
  function RemoveSpace(s: string): string {
    if s == [] then [] else (if IsSpace(s[0]) then [] else [s[0]]) + RemoveSpace(s[1..])
  }

  /** `s` starts with the last character of a whitespace run. */
  predicate EndsSpaceRun(s: string) {
    s != [] && IsSpace(s[0]) && (|s| == 1 || !IsSpace(s[1]))
  }

  /** The number of maximal whitespace runs in `s`, counted at the last
      character of each run. */
  function SpaceRuns(s: string): nat {
    if s == [] then 0 else (if EndsSpaceRun(s) then 1 else 0) + SpaceRuns(s[1..])
  }

  function Concat(ws: seq<string>): string {
    if ws == [] then [] else ws[0] + Concat(ws[1..])
  }

  /** `s.split(/\s+/)`: the pieces between maximal whitespace runs. Read from
      the front: a non-whitespace character joins the first piece, the last
      character of a whitespace run opens a new, empty first piece, and the
      other whitespace characters of a run are absorbed. */
  function SplitWords(s: string): (r: seq<string>)
    ensures |r| >= 1
  {
    if s == [] then [[]]
    else
      var rest := SplitWords(s[1..]);
      if !IsSpace(s[0]) then [[s[0]] + rest[0]] + rest[1..]
      else if EndsSpaceRun(s) then [[]] + rest
      else rest
  }

  /** No piece holds whitespace. */
  lemma {:induction false} SplitWordsNoSpace(s: string)
    ensures forall i :: 0 <= i < |SplitWords(s)| ==> NoSpace(SplitWords(s)[i])
  {
    if s != [] {
      SplitWordsNoSpace(s[1..]);
      var rest := SplitWords(s[1..]);
      if !IsSpace(s[0]) {
        var w := [s[0]] + rest[0];
        assert NoSpace(w) by {
          forall k | 0 < k < |w| ensures !IsSpace(w[k]) {
            assert w[k] == rest[0][k - 1];
          }
        }
        var r := [w] + rest[1..];
        assert forall i :: 0 < i < |r| ==> r[i] == rest[i];
      } else if EndsSpaceRun(s) {
        var r := [[]] + rest;
        assert forall i :: 0 < i < |r| ==> r[i] == rest[i - 1];
      }
    }
  }

  /** Together the pieces are `s` without its whitespace. */
  lemma {:induction false} SplitWordsConcat(s: string)
    ensures Concat(SplitWords(s)) == RemoveSpace(s)
  {
    if s != [] {
      SplitWordsConcat(s[1..]);
      var rest := SplitWords(s[1..]);
      assert Concat(rest) == rest[0] + Concat(rest[1..]);
      if !IsSpace(s[0]) {
        var r := [[s[0]] + rest[0]] + rest[1..];
        assert r[1..] == rest[1..];
        assert Concat(r) == ([s[0]] + rest[0]) + Concat(rest[1..]);
        assert Concat(r) == [s[0]] + Concat(rest);
      } else if EndsSpaceRun(s) {
        var r := [[]] + rest;
        assert r[1..] == rest;
        assert Concat(r) == [] + Concat(rest);
      }
    }
  }

  /** There is one more piece than there are whitespace runs. */
  lemma {:induction false} SplitWordsCount(s: string)
    ensures |SplitWords(s)| == 1 + SpaceRuns(s)
  {
    if s != [] {
      SplitWordsCount(s[1..]);
      var rest := SplitWords(s[1..]);
      if !IsSpace(s[0]) {
        assert |SplitWords(s)| == |[[s[0]] + rest[0]] + rest[1..]| == |rest|;
      }
    }
  }

  /** The first piece is empty only when `s` starts with whitespace. */
  lemma FirstWordNonEmpty(s: string)
    requires s != [] && !IsSpace(s[0])
    ensures SplitWords(s)[0] != []
  {
    var rest := SplitWords(s[1..]);
    assert SplitWords(s)[0] == [s[0]] + rest[0];
  }

  /** The last piece is empty only when `s` ends with whitespace. */
  lemma {:induction false} LastWordNonEmpty(s: string)
    requires s != [] && !IsSpace(s[|s| - 1])
    ensures SplitWords(s)[|SplitWords(s)| - 1] != []
  {
    var rest := SplitWords(s[1..]);
    if |s| > 1 {
      assert s[1..][|s| - 2] == s[|s| - 1];
      LastWordNonEmpty(s[1..]);
      if !IsSpace(s[0]) {
        var r := [[s[0]] + rest[0]] + rest[1..];
        if |rest| == 1 {
          assert r[|r| - 1] == [s[0]] + rest[0];
        } else {
          assert r[|r| - 1] == rest[|rest| - 1];
        }
      } else if EndsSpaceRun(s) {
        var r := [[]] + rest;
        assert r[|r| - 1] == rest[|rest| - 1];
      }
    } else {
      assert SplitWords(s)[0] == [s[0]] + rest[0];
    }
  }

  /** Pieces strictly between the first and the last are never empty. */
  lemma {:induction false} InnerWordsNonEmpty(s: string)
    ensures forall i :: 0 < i < |SplitWords(s)| - 1 ==> SplitWords(s)[i] != []
  {
    if s != [] {
      InnerWordsNonEmpty(s[1..]);
      var rest := SplitWords(s[1..]);
      if !IsSpace(s[0]) {
        var r := [[s[0]] + rest[0]] + rest[1..];
        assert SplitWords(s) == r && |r| == |rest|;
        forall i | 0 < i < |r| - 1 ensures r[i] != [] {
          assert r[i] == rest[i];
        }
      } else if EndsSpaceRun(s) {
        var r := [[]] + rest;
        if |s| > 1 {
          assert s[1..][0] == s[1];
          FirstWordNonEmpty(s[1..]);
        }
        assert forall i :: 0 < i < |r| ==> r[i] == rest[i - 1];
      } else {
        assert SplitWords(s) == rest;
      }
    }
  }

  /** A trimmed, non-empty query splits into non-empty words. */
  lemma TrimmedWordsNonEmpty(s: string)
    requires s != [] && !IsSpace(s[0]) && !IsSpace(s[|s| - 1])
    ensures forall i :: 0 <= i < |SplitWords(s)| ==> SplitWords(s)[i] != []
  {
    FirstWordNonEmpty(s);
    LastWordNonEmpty(s);
    InnerWordsNonEmpty(s);
  }

  /** The maximal whitespace runs of `s`, in order: the separators that
      `split(/\s+/)` cuts at. */
  function Gaps(s: string): (r: seq<string>)
    ensures |r| == SpaceRuns(s)
    ensures forall i :: 0 <= i < |r| ==> r[i] != [] && AllSpace(r[i])
    ensures s != [] && IsSpace(s[0]) ==> r != [] && r[0][0] == s[0]
  {
    if s == [] then []
    else
      var rest := Gaps(s[1..]);
      if !IsSpace(s[0]) then rest
      else if EndsSpaceRun(s) then [[s[0]]] + rest
      else
        assert s[1..][0] == s[1];
        [[s[0]] + rest[0]] + rest[1..]
  }

  /** `w[0] + sp[0] + w[1] + … + sp[n - 1] + w[n]`. */
  function Join(w: seq<string>, sp: seq<string>): string {
    if w == [] then []
    else if sp == [] then w[0]
    else w[0] + sp[0] + Join(w[1..], sp[1..])
  }

  /** A piece after a whitespace character is empty. */
  lemma SpaceStartsEmptyWord(s: string)
    requires s != [] && IsSpace(s[0])
    ensures SplitWords(s)[0] == []
  {
    if !EndsSpaceRun(s) {
      assert s[1..][0] == s[1];
      SpaceStartsEmptyWord(s[1..]);
    }
  }

  /** Extending the first piece extends the joined text at the front. */
  lemma JoinExtendFirst(c: string, w: seq<string>, sp: seq<string>)
    requires w != []
    ensures Join([c + w[0]] + w[1..], sp) == c + Join(w, sp)
  {
    var w' := [c + w[0]] + w[1..];
    assert w'[0] == c + w[0] && w'[1..] == w[1..];
  }

  /** Where `split(/\s+/)` cuts: `s` is its pieces interleaved with its
      maximal whitespace runs. The pieces hold no whitespace and the runs are
      non-empty and all whitespace, so the cuts fall exactly at the runs. */
  lemma {:induction false} SplitWordsAtGaps(s: string)
    ensures |SplitWords(s)| == |Gaps(s)| + 1
    ensures forall i :: 0 <= i < |SplitWords(s)| ==> NoSpace(SplitWords(s)[i])
    ensures forall i :: 0 <= i < |Gaps(s)| ==> Gaps(s)[i] != [] && AllSpace(Gaps(s)[i])
    ensures Join(SplitWords(s), Gaps(s)) == s
  {
    SplitWordsCount(s);
    SplitWordsNoSpace(s);
    if s != [] {
      SplitWordsAtGaps(s[1..]);
      JoinStep(s);
    }
  }

  /** One character in front: the join of `s` from the join of `s[1..]`. */
  lemma JoinStep(s: string)
    requires s != [] && Join(SplitWords(s[1..]), Gaps(s[1..])) == s[1..]
    ensures Join(SplitWords(s), Gaps(s)) == s
  {
    var w, g := SplitWords(s[1..]), Gaps(s[1..]);
    assert [s[0]] + s[1..] == s;
    if !IsSpace(s[0]) {
      JoinExtendFirst([s[0]], w, g);
    } else if EndsSpaceRun(s) {
      JoinNewWord(s[0], w, g);
    } else {
      assert s[1..][0] == s[1];
      SpaceStartsEmptyWord(s[1..]);
      var g' := Gaps(s);
      assert g' == [[s[0]] + g[0]] + g[1..];
      assert g'[0] == [s[0]] + g[0] && g'[1..] == g[1..];
      JoinExtendGap(s[0], w, g, g');
    }
  }

  /** A whitespace character that ends a run opens an empty first piece. */
  lemma JoinNewWord(c: char, w: seq<string>, g: seq<string>)
    requires w != []
    ensures Join([[]] + w, [[c]] + g) == [c] + Join(w, g)
  {
    var w', g' := [[]] + w, [[c]] + g;
    assert w'[0] == [] && w'[1..] == w && g'[0] == [c] && g'[1..] == g;
  }

  /** A whitespace character inside a run joins the first run. */
  lemma JoinExtendGap(c: char, w: seq<string>, g: seq<string>, g': seq<string>)
    requires w != [] && w[0] == [] && g != [] && g' != []
    requires g'[0] == [c] + g[0] && g'[1..] == g[1..]
    ensures Join(w, g') == [c] + Join(w, g)
  {
    JoinEmptyFirst(w, g);
    JoinEmptyFirst(w, g');
    AppendAssoc([c], g[0], Join(w[1..], g[1..]));
  }

  /** A join whose first piece is empty starts with the first gap. */
  lemma JoinEmptyFirst(w: seq<string>, g: seq<string>)
    requires w != [] && w[0] == [] && g != []
    ensures Join(w, g) == g[0] + Join(w[1..], g[1..])
  {
    JoinUnfold(w, g);
    assert w[0] + g[0] == g[0];
  }

  lemma AppendAssoc(a: string, b: string, c: string)
    ensures a + b + c == a + (b + c)
  {
  }

  lemma JoinUnfold(w: seq<string>, g: seq<string>)
    requires w != [] && g != []
    ensures Join(w, g) == w[0] + g[0] + Join(w[1..], g[1..])
  {
  }

  // The word-boundary test of `new RegExp('\\b' + escapedWord, 'i')`.

  /** Position `p` of `text` is a word boundary (`\b` without the `u` flag):
      exactly one of the characters on either side is a `\w` character, the
      ends of the text counting as non-word. */
  predicate IsBoundary(text: string, p: int)
    requires 0 <= p <= |text|
  {
    (p > 0 && IsWordChar(text[p - 1])) != (p < |text| && IsWordChar(text[p]))
  }

  /** `w` occurs literally at position `p` of `text`. */
  predicate OccursAt(text: string, w: string, p: int) {
    0 <= p && p + |w| <= |text| && text[p..p + |w|] == w
  }

  /** The escaped word matches somewhere: it occurs literally at a word boundary. */
  predicate WordAtBoundary(text: string, w: string) {
    exists p :: 0 <= p <= |text| - |w| && OccursAt(text, w, p) && IsBoundary(text, p)
  }

  /** `words.every(word => regex.test(text))`. */
  predicate AllWordsMatch(words: seq<string>, text: string) {
    forall i :: 0 <= i < |words| ==> WordAtBoundary(text, words[i])
  }

  /** The filter callback of `performSearch`, for a lowered, trimmed term. */
  predicate MatchesQuery(c: Country, term: string) {
    var searchPhone := DigitsOf(term);
    if IsPhoneSearch(term) && searchPhone != [] then
      c.phoneCode.Some? && IsPrefix(searchPhone, DigitsOf(c.phoneCode.value))
    else if LowerEquals(c.iso2, term) || LowerEquals(c.iso3, term) || LowerEquals(c.fips, term) then
      true
    else if LowerEquals(c.topLevelDomain, term) || LowerEquals(c.topLevelDomain, RemoveFirstDot(term)) then
      true
    else
      var words := SplitWords(term);
      AllWordsMatch(words, LowerOrEmpty(c.countryName)) || AllWordsMatch(words, LowerOrEmpty(c.capital))
  }

  /** `array.filter(keep)`: the elements `keep` accepts, in their order. */
  function Select<T(==)>(t: seq<T>, keep: T -> bool): (r: seq<T>)
    ensures |r| <= |t|
    ensures forall x :: x in r ==> x in t && keep(x)
    ensures forall i :: 0 <= i < |t| && keep(t[i]) ==> t[i] in r
  {
    if t == [] then []
    else
      var r := Select(t[..|t| - 1], keep);
      assert forall i :: 0 <= i < |t| - 1 ==> t[..|t| - 1][i] == t[i];
      r + (if keep(t[|t| - 1]) then [t[|t| - 1]] else [])
  }

  /** The positions of the accepted elements, ascending. */
  function Positions<T>(t: seq<T>, keep: T -> bool): (idx: seq<nat>)
    ensures forall k :: 0 <= k < |idx| ==> idx[k] < |t| && keep(t[idx[k]])
    ensures forall k, l :: 0 <= k < l < |idx| ==> idx[k] < idx[l]
    ensures forall i :: 0 <= i < |t| && keep(t[i]) ==> i in idx
  {
    if t == [] then []
    else
      var idx := Positions(t[..|t| - 1], keep);
      assert forall i :: 0 <= i < |t| - 1 ==> t[..|t| - 1][i] == t[i];
      idx + (if keep(t[|t| - 1]) then [|t| - 1] else [])
  }

  /** The selection is the list read at the accepted positions, in
      ascending order: each accepted element once, nothing reordered. */
  lemma {:induction false} SelectKeepsOrder<T>(t: seq<T>, keep: T -> bool)
    ensures |Select(t, keep)| == |Positions(t, keep)|
    ensures forall k :: 0 <= k < |Select(t, keep)| ==>
              Select(t, keep)[k] == t[Positions(t, keep)[k]]
  {
    if t != [] {
      var t' := t[..|t| - 1];
      SelectKeepsOrder(t', keep);
      var f, f' := Select(t, keep), Select(t', keep);
      var x, x' := Positions(t, keep), Positions(t', keep);
      var last := keep(t[|t| - 1]);
      assert f == f' + (if last then [t[|t| - 1]] else []);
      assert x == x' + (if last then [|t| - 1] else []);
      forall k | 0 <= k < |f| ensures f[k] == t[x[k]] {
        if k < |f'| {
          assert f[k] == f'[k] && x[k] == x'[k];
          assert t'[x'[k]] == t[x'[k]];
        }
      }
    }
  }

  /** The filter callback for one term. */
  function QueryFilter(term: string): Country -> bool {
    c => MatchesQuery(c, term)
  }

  /** `COUNTRIES.filter(...)`: the records that match, in table order. */
  function Filter(t: seq<Country>, term: string): (r: seq<Country>)
    ensures |r| <= |t|
    ensures forall x :: x in r ==> x in t && MatchesQuery(x, term)
    ensures forall i :: 0 <= i < |t| && MatchesQuery(t[i], term) ==> t[i] in r
  {
    Select(t, QueryFilter(term))
  }

  /** What `performSearch` leaves in `results` for a query: nothing for a
      blank query, otherwise the filtered table. */
  function Search(t: seq<Country>, q: string): (r: seq<Country>)
    ensures AllSpace(q) ==> r == []
    ensures forall x :: x in r ==> x in t && MatchesQuery(x, SearchTerm(q))
    ensures !AllSpace(q) ==> forall i :: 0 <= i < |t| && MatchesQuery(t[i], SearchTerm(q)) ==> t[i] in r
  {
    if Trim(q) == [] then [] else Filter(t, SearchTerm(q))
  }

  /** A blank query shows no result whatever the table holds. */
  lemma BlankQueryNoResults(t: seq<Country>, q: string)
    requires AllSpace(q)
    ensures Search(t, q) == []
  {
  }

  /** In phone mode only the phone code decides: a record matches exactly
      when it has a phone code whose digits start with the query's digits,
      whatever its other fields hold. */
  lemma PhoneModeOnlyCode(c: Country, term: string)
    requires IsPhoneSearch(term) && DigitsOf(term) != []
    ensures MatchesQuery(c, term) <==> c.phoneCode.Some? && IsPrefix(DigitsOf(term), DigitsOf(c.phoneCode.value))
    ensures c.phoneCode.None? ==> !MatchesQuery(c, term)
  {
  }

  /** A query `+` alone has no digit, so phone mode is skipped and the code,
      domain and name rules decide. */
  lemma PlusAloneFallsThrough(c: Country)
    ensures MatchesQuery(c, "+") <==>
              LowerEquals(c.iso2, "+") || LowerEquals(c.iso3, "+") || LowerEquals(c.fips, "+")
              || LowerEquals(c.topLevelDomain, "+")
              || WordAtBoundary(LowerOrEmpty(c.countryName), "+")
              || WordAtBoundary(LowerOrEmpty(c.capital), "+")
  {
    assert DigitsOf("+") == [];
    assert RemoveFirstDot("+") == "+";
    assert SplitWords("+") == ["+"] by {
      SplitOneWord("+");
    }
    forall text: string ensures AllWordsMatch(["+"], text) <==> WordAtBoundary(text, "+") {
      assert ["+"][0] == "+";
    }
  }

  /** Outside phone mode, an ISO2, ISO3 or FIPS code equal to the query up
      to ASCII case is a match. */
  lemma CodeMatchIgnoresCase(c: Country, q: string)
    requires var t := SearchTerm(q);
             LowerEquals(c.iso2, t) || LowerEquals(c.iso3, t) || LowerEquals(c.fips, t)
    requires !(IsPhoneSearch(SearchTerm(q)) && DigitsOf(SearchTerm(q)) != [])
    ensures MatchesQuery(c, SearchTerm(q))
  {
  }

  /** Outside phone mode, a top-level domain equal up to ASCII case to the
      query, or to the query with its first `.` removed, is a match. */
  lemma DomainRuleMatches(c: Country, t: string)
    requires LowerEquals(c.topLevelDomain, t) || LowerEquals(c.topLevelDomain, RemoveFirstDot(t))
    requires !(IsPhoneSearch(t) && DigitsOf(t) != [])
    ensures MatchesQuery(c, t)
  {
  }

  /** `.in` and `in` both find the country whose top-level domain is `in`. */
  lemma DomainWithOrWithoutDot(c: Country)
    requires c.topLevelDomain == Some("in")
    ensures MatchesQuery(c, ".in") && MatchesQuery(c, "in")
  {
    assert DigitsOf(".in") == [] && DigitsOf("in") == [];
    assert AsciiLower("in") == "in";
    assert RemoveFirstDot(".in") == "in";
    DomainRuleMatches(c, ".in");
    DomainRuleMatches(c, "in");
  }

  /** The dot removed need not lead the query: `i.n` finds the domain `in` too. */
  lemma DomainDotAnywhere(c: Country)
    requires c.topLevelDomain == Some("in")
    ensures MatchesQuery(c, "i.n")
  {
    assert DigitsOf("i.n") == [];
    assert AsciiLower("in") == "in";
    var r := RemoveFirstDot("i.n");
    assert "i.n"[1] == '.' && "i.n"[..1] == "i";
    assert r == "in";
    DomainRuleMatches(c, "i.n");
  }

  /** A word that begins the text, or follows a non-word character, and
      begins with a word character matches there. */
  lemma WordAfterSeparator(pre: string, w: string, post: string)
    requires w != [] && IsWordChar(w[0])
    requires pre == [] || !IsWordChar(pre[|pre| - 1])
    ensures WordAtBoundary(pre + w + post, w)
  {
    var text := pre + w + post;
    var p := |pre|;
    assert text[p..p + |w|] == w;
    assert text[p] == w[0];
    if p > 0 { assert text[p - 1] == pre[p - 1]; }
    assert OccursAt(text, w, p) && IsBoundary(text, p);
  }

  /** A query without whitespace is one word. */
  lemma {:induction false} SplitOneWord(w: string)
    requires NoSpace(w)
    ensures SplitWords(w) == [w]
  {
    if w != [] {
      assert NoSpace(w[1..]) by {
        forall k | 0 <= k < |w[1..]| ensures !IsSpace(w[1..][k]) { assert w[1..][k] == w[k + 1]; }
      }
      SplitOneWord(w[1..]);
      assert [w[0]] + w[1..] == w;
    }
  }

  /** A word in front of text becomes the start of the first piece. */
  lemma {:induction false} SplitAfterWord(w: string, rest: string)
    requires NoSpace(w)
    ensures var r := SplitWords(rest); SplitWords(w + rest) == [w + r[0]] + r[1..]
  {
    var r := SplitWords(rest);
    if w == [] {
      assert w + rest == rest && w + r[0] == r[0];
      assert [r[0]] + r[1..] == r;
    } else {
      var s := w + rest;
      assert s[0] == w[0] && s[1..] == w[1..] + rest;
      assert NoSpace(w[1..]) by {
        forall k | 0 <= k < |w[1..]| ensures !IsSpace(w[1..][k]) { assert w[1..][k] == w[k + 1]; }
      }
      SplitAfterWord(w[1..], rest);
      assert [w[0]] + (w[1..] + r[0]) == w + r[0];
    }
  }

  /** Two words separated by one space split into those two words. */
  lemma SplitTwoWords(w1: string, w2: string)
    requires NoSpace(w1) && NoSpace(w2) && w2 != []
    ensures SplitWords(w1 + " " + w2) == [w1, w2]
  {
    var t := " " + w2;
    assert t[1..] == w2 && t[1] == w2[0];
    SplitOneWord(w2);
    assert SplitWords(t) == [[], w2];
    SplitAfterWord(w1, t);
    assert w1 + " " + w2 == w1 + t;
    assert w1 + [] == w1;
  }

  /** The words of a query must all be found in the name or all in the
      capital: when the first word is missing from the capital and the
      second from the name, a two-word query finds neither, even though
      each word alone may match one of the two fields. */
  lemma WordsNotSplitAcrossFields(c: Country, w1: string, w2: string)
    requires NoSpace(w1) && NoSpace(w2) && w2 != []
    requires var t := w1 + " " + w2;
             && !(IsPhoneSearch(t) && DigitsOf(t) != [])
             && !LowerEquals(c.iso2, t) && !LowerEquals(c.iso3, t) && !LowerEquals(c.fips, t)
             && !LowerEquals(c.topLevelDomain, t) && !LowerEquals(c.topLevelDomain, RemoveFirstDot(t))
    requires !WordAtBoundary(LowerOrEmpty(c.countryName), w2)
    requires !WordAtBoundary(LowerOrEmpty(c.capital), w1)
    ensures !MatchesQuery(c, w1 + " " + w2)
  {
    SplitTwoWords(w1, w2);
    var words := [w1, w2];
    assert words[0] == w1 && words[1] == w2;
  }

  /** `ndia` is not found in `india`: an occurrence that starts inside a run
      of word characters is not at a word boundary. */
  lemma NoMatchInsideWord()
    ensures !WordAtBoundary("india", "ndia")
  {
    var name := "india";
    forall p | 0 <= p <= |name| - 4 && OccursAt(name, "ndia", p) ensures !IsBoundary(name, p) {
      assert name[p..p + 4][0] == name[p];
    }
  }

  /** The popup's state: the table it searches, the query last typed and
      the records shown for it. */
  class SearchBox {
    const countries: seq<Country>
    var searchQuery: string
    var results: seq<Country>

    /** The results always belong to the current query. */
    predicate Valid()
      reads this
    {
      results == Search(countries, searchQuery)
    }

    /** The popup opens with an empty query and no results. */
    constructor(countries: seq<Country>)
      ensures this.countries == countries && searchQuery == [] && results == []
      ensures Valid()
    {
      this.countries := countries;
      searchQuery := [];
      results := [];
    }

    /** `performSearch`: recomputes `results` from `searchQuery`. */
    method PerformSearch()
      modifies this`results
      ensures results == Search(countries, searchQuery)
      ensures Valid()
    {
      if Trim(searchQuery) == [] {
        results := [];
        return;
      }
      var searchTerm := SearchTerm(searchQuery);
      results := Filter(countries, searchTerm);
    }

    /** `handleSearch`: records the input's value, then searches. */
    method HandleSearch(value: string)
      modifies this
      ensures searchQuery == value && results == Search(countries, value)
      ensures Valid()
    {
      searchQuery := value;
      PerformSearch();
    }

    /** What the invariant gives the rendering: every card shown is a table
        record matching the typed query, every matching record is shown
        unless the query is blank, and a blank query shows nothing. */
    lemma ShownResultsMatch()
      requires Valid()
      ensures forall x :: x in results ==> x in countries && MatchesQuery(x, SearchTerm(searchQuery))
      ensures !AllSpace(searchQuery) ==>
                forall i :: 0 <= i < |countries| && MatchesQuery(countries[i], SearchTerm(searchQuery)) ==>
                  countries[i] in results
      ensures AllSpace(searchQuery) ==> results == []
    {
    }
  }

  // The time-zone label of a result card.

  /** `a..b` is the second `/`-separated segment of `z`: it follows the
      first `/` and runs to the next `/` or to the end. */
  predicate SecondSegment(z: string, a: int, b: int) {
    && 1 <= a <= b <= |z|
    && z[a - 1] == '/' && '/' !in z[..a - 1]
    && '/' !in z[a..b]
    && (b == |z| || z[b] == '/')
  }

  /** `s.replace(/_/g, ' ')`. */
  function Spaced(s: string): (r: string)
    ensures |r| == |s|
    ensures forall k :: 0 <= k < |s| ==> r[k] == (if s[k] == '_' then ' ' else s[k])
  {
    seq(|s|, k requires 0 <= k < |s| => if s[k] == '_' then ' ' else s[k])
  }

  /** `tz?.split('/')[1]?.replace(/_/g, ' ')`: the second segment of the
      zone name with its underscores turned into spaces; absent when the
      zone is missing or has no `/`. */
  function TimeZoneLabel(tz: Option<string>): (r: Option<string>)
    ensures r.None? <==> tz.None? || '/' !in tz.value
    ensures r.Some? ==> exists a, b :: SecondSegment(tz.value, a, b) && r.value == Spaced(tz.value[a..b])
  {
    match tz
    case None => None
    case Some(z) =>
      match FirstIndex(z, '/')
      case None => None
      case Some(i) =>
        var rest := z[i + 1..];
        var len := match FirstIndex(rest, '/') case None => |rest| case Some(j) => j;
        assert rest[..len] == z[i + 1..i + 1 + len];
        assert z[..i + 1 - 1] == z[..i];
        assert SecondSegment(z, i + 1, i + 1 + len);
        Some(Spaced(rest[..len]))
  }

  /** The second segment is determined by the zone name. */
  lemma SecondSegmentUnique(z: string, a: int, b: int, a': int, b': int)
    requires SecondSegment(z, a, b) && SecondSegment(z, a', b')
    ensures a == a' && b == b'
  {
    NoSlashBefore(z, a);
    NoSlashBefore(z, a');
    NoSlashWithin(z, a, b);
    NoSlashWithin(z, a', b');
  }

  lemma NoSlashBefore(z: string, a: int)
    requires 1 <= a <= |z| && '/' !in z[..a - 1]
    ensures forall k :: 0 <= k < a - 1 ==> z[k] != '/'
  {
    forall k | 0 <= k < a - 1 ensures z[k] != '/' {
      assert z[..a - 1][k] == z[k];
    }
  }

  lemma NoSlashWithin(z: string, a: int, b: int)
    requires 0 <= a <= b <= |z| && '/' !in z[a..b]
    ensures forall k :: a <= k < b ==> z[k] != '/'
  {
    forall k | a <= k < b ensures z[k] != '/' {
      assert z[a..b][k - a] == z[k];
    }
  }

  /** The label of `z`, once its second segment is known. */
  lemma LabelOfSegment(z: string, a: int, b: int)
    requires SecondSegment(z, a, b)
    ensures TimeZoneLabel(Some(z)) == Some(Spaced(z[a..b]))
  {
    assert '/' in z by { assert z[a - 1] == '/'; }
    var r := TimeZoneLabel(Some(z)).value;
    var a', b' :| SecondSegment(z, a', b') && r == Spaced(z[a'..b']);
    SecondSegmentUnique(z, a, b, a', b');
  }

  /** `Area/City`: the label is the city with spaces for underscores. */
  lemma LabelOfAreaCity(area: string, city: string)
    requires '/' !in area && '/' !in city
    ensures TimeZoneLabel(Some(area + "/" + city)) == Some(Spaced(city))
  {
    var z := area + "/" + city;
    var a, b := |area| + 1, |z|;
    assert z[..a - 1] == area && z[a..b] == city;
    LabelOfSegment(z, a, b);
  }

  /** `Area/Region/City`: the label is the middle segment, the rest is dropped. */
  lemma LabelOfThreeSegments(area: string, region: string, city: string)
    requires '/' !in area && '/' !in region
    ensures TimeZoneLabel(Some(area + "/" + region + "/" + city)) == Some(Spaced(region))
  {
    var z := area + "/" + region + "/" + city;
    var a, b := |area| + 1, |area| + 1 + |region|;
    assert z[..a - 1] == area && z[a..b] == region && z[b] == '/';
    LabelOfSegment(z, a, b);
  }

  /** For instance `America/New_York` is labelled `New York`. */
  lemma SpacedNewYork()
    ensures Spaced("New_York") == "New York"
  {
    var r := Spaced("New_York");
    assert r[3] == ' ';
    assert r[..3] == "New" && r[4..] == "York";
    assert r == r[..3] + [r[3]] + r[4..];
  }
}

=== FILE: text.dfy ===
/** An optional value, standing for JavaScript's
    `undefined`/`null` wherever the source uses one. */
module Opt {
  datatype Option<+T> = None | Some(value: T)
}

/** Scanning a sequence from the front, as `Array.find`, `indexOf` and a
    `for…of` loop with an early return all do. */
module Scan {
  import opened Opt

  /** The index of the first element `ok` accepts, or nothing when it
      accepts none. */
  function FirstAccepted<T>(xs: seq<T>, ok: T -> bool): (r: Option<nat>)
    ensures r.Some? ==> r.value < |xs| && ok(xs[r.value])
    ensures r.Some? ==> forall j :: 0 <= j < r.value ==> !ok(xs[j])
    ensures r.None? <==> forall j :: 0 <= j < |xs| ==> !ok(xs[j])
  {
    if xs == [] then None
    else if ok(xs[0]) then Some(0)
    else match FirstAccepted(xs[1..], ok)
      case None => None
      case Some(i) => Some(i + 1)
  }
}

/** Character classes and string helpers shared by the content script and the
    popup: JavaScript's `\d`, `\s`, `\w`, `trim()`, `toLowerCase()` and the
    decimal rendering of a whole number inside a template literal. */
module Text {

  /** `\d` in a JavaScript regular expression: the ASCII digits only. */
  predicate IsDigit(c: char) {
    '0' <= c <= '9'
  }

  /** `\s` in a JavaScript regular expression, which is also the set that
      `String.prototype.trim` removes: WhiteSpace and LineTerminator. */
  predicate IsSpace(c: char) {
    || c == '\t' || c == '\n' || c == '\U{000B}' || c == '\U{000C}' || c == '\r'
    || c == ' ' || c == '\U{00A0}' || c == '\U{1680}'
    || ('\U{2000}' <= c <= '\U{200A}')
    || c == '\U{2028}' || c == '\U{2029}' || c == '\U{202F}' || c == '\U{205F}'
    || c == '\U{3000}' || c == '\U{FEFF}'
  }

  /** `\w` without the `u` flag: ASCII letters, digits and underscore. */
  predicate IsWordChar(c: char) {
    ('a' <= c <= 'z') || ('A' <= c <= 'Z') || IsDigit(c) || c == '_'
  }

  predicate AllDigits(s: string) {
    forall i :: 0 <= i < |s| ==> IsDigit(s[i])
  }

  predicate AllSpace(s: string) {
    forall i :: 0 <= i < |s| ==> IsSpace(s[i])
  }

  /** `s.replace(/\D/g, '')`: the digits of `s`, in order. */
  function DigitsOf(s: string): (r: string)
    ensures AllDigits(r)
    ensures |r| <= |s|
    ensures AllDigits(s) ==> r == s
  {
    if s == [] then []
    else (if IsDigit(s[0]) then [s[0]] else []) + DigitsOf(s[1..])
  }

  /** Removing non-digits distributes over concatenation; it is what makes a
      lookup insensitive to a `+`, a parenthesis or a separator anywhere. */
  lemma {:induction false} DigitsOfConcat(a: string, b: string)
    ensures DigitsOf(a + b) == DigitsOf(a) + DigitsOf(b)
  {
    if a == [] {
      assert a + b == b;
    } else {
      assert (a + b)[0] == a[0];
      assert (a + b)[1..] == a[1..] + b;
      DigitsOfConcat(a[1..], b);
    }
  }

  /** A string with no digit contributes nothing to `DigitsOf`. */
  lemma {:induction false} DigitsOfNoDigits(s: string)
    requires forall i :: 0 <= i < |s| ==> !IsDigit(s[i])
    ensures DigitsOf(s) == []
  {
    if s != [] {
      DigitsOfNoDigits(s[1..]);
    }
  }

  /** How many whitespace characters `s` starts with. */
  function LeadingSpace(s: string): (n: nat)
    ensures n <= |s|
    ensures forall i :: 0 <= i < n ==> IsSpace(s[i])
    ensures n < |s| ==> !IsSpace(s[n])
  {
    if s != [] && IsSpace(s[0]) then 1 + LeadingSpace(s[1..]) else 0
  }

  /** How many whitespace characters `s` ends with. */
  function TrailingSpace(s: string): (n: nat)
    ensures n <= |s|
    ensures forall i :: |s| - n <= i < |s| ==> IsSpace(s[i])
    ensures n < |s| ==> !IsSpace(s[|s| - 1 - n])
  {
    if s != [] && IsSpace(s[|s| - 1]) then 1 + TrailingSpace(s[..|s| - 1]) else 0
  }

  /** `String.prototype.trim`: `s` without its leading and trailing whitespace.
      The result is the slice of `s` that follows its leading whitespace and
      is followed only by whitespace; it neither starts nor ends with
      whitespace, and it is empty exactly when `s` is all whitespace. */
  function Trim(s: string): (r: string)
    ensures LeadingSpace(s) + |r| <= |s| && r == s[LeadingSpace(s)..LeadingSpace(s) + |r|]
    ensures forall i :: LeadingSpace(s) + |r| <= i < |s| ==> IsSpace(s[i])
    ensures r == [] || (!IsSpace(r[0]) && !IsSpace(r[|r| - 1]))
    ensures r == [] <==> AllSpace(s)
  {
    var a := LeadingSpace(s);
    if a == |s| then
      []
    else
      var b := |s| - TrailingSpace(s);
      assert a < b;
      s[a..b]
  }

  /** Text that neither starts nor ends with whitespace is left alone by `trim()`. */
  lemma TrimUnchanged(s: string)
    requires s == [] || (!IsSpace(s[0]) && !IsSpace(s[|s| - 1]))
    ensures Trim(s) == s
  {
    assert LeadingSpace(s) == 0;
  }

  function LowerChar(c: char): char {
    if 'A' <= c <= 'Z' then (c as int - 'A' as int + 'a' as int) as char else c
  }

  /** `toLowerCase()` restricted to the ASCII letters. */
  function AsciiLower(s: string): (r: string)
    ensures |r| == |s|
    ensures forall i :: 0 <= i < |s| ==> r[i] == LowerChar(s[i])
  {
    seq(|s|, i requires 0 <= i < |s| => LowerChar(s[i]))
  }

  function DigitChar(d: nat): char
    requires d < 10
  {
    ('0' as int + d) as char
  }

  function DigitValue(c: char): nat
    requires IsDigit(c)
  {
    c as int - '0' as int
  }

  /** The decimal text of a whole number, as a template literal renders it. */
  function NatText(n: nat): (r: string)
    ensures |r| >= 1 && AllDigits(r)
    ensures |r| > 1 ==> r[0] != '0'
  {
    if n < 10 then [DigitChar(n)] else NatText(n / 10) + [DigitChar(n % 10)]
  }

  /** Reads a run of decimal digits back as a number. */
  function ParseNat(s: string): nat
    requires AllDigits(s)
  {
    if s == [] then 0 else ParseNat(s[..|s| - 1]) * 10 + DigitValue(s[|s| - 1])
  }

  /** The number shown in a message can be read back exactly. */
  lemma {:induction false} NatTextRoundTrip(n: nat)
    ensures ParseNat(NatText(n)) == n
  {
    if n >= 10 {
      var t := NatText(n);
      assert t[..|t| - 1] == NatText(n / 10);
      NatTextRoundTrip(n / 10);
    }
  }

  /** Distinct numbers render as distinct texts. */
  lemma NatTextInjective(m: nat, n: nat)
    requires NatText(m) == NatText(n)
    ensures m == n
  {
    NatTextRoundTrip(m);
    NatTextRoundTrip(n);
  }
}
